=== FILE: README.md ===
# UserStream core, modelled in Dafny

This project models the sequential logic of the UserStream services, a set of
small Java microservices for users, notifications, alerts and reports:

- **CSV export.** The web module's `CsvUserWriter` quotes fields after section 2
  of RFC 4180, formats a user as a six-column row and writes the header only into
  a new file. A carriage return on its own does not make it quote a field. The
  reports module's `UserReport` has a fixed header and an unquoted five-column
  row. Every writer is checked against one reader for a single record
  (`Csv.ParseRecord`). The reader refuses an unquoted field holding a double
  quote, a CR or an LF, as the grammar of RFC 4180 does.
- **Repositories.** The users `InMemoryUserRepository` and the
  `NotificationRepository` are hash maps, modelled as Dafny maps. A hash map's
  iteration order is a parameter: a duplicate-free listing of its keys.
- **Record transitions.** A `Notification` starts PENDING and the send route
  marks it SENT. An `Alert` starts unread and the mark-read route marks it read.
- **Messaging decisions.**
  - `ActiveMqReceiver`: message dispatch to an optional handler, and ordered,
    short-circuiting close over optional resources.
  - `Broker`: the embedded-broker startup decision, made once per class
    initialisation.
  - `MQ`: the destination and URL constants.

Java conventions are modelled explicitly:

- A nullable reference is an `Option`.
- A thrown exception is the `Err` side of a `Result`, or a field of an outcome
  when the state has already changed before the throw. An exception is its class
  name and its message. A cause is kept only where the caller can see nothing
  else, in `Broker.AccessClass`.
- `int` is `JavaLang.Int32`.
- `LocalDateTime` is opaque. It carries its ISO-8601 and `toString` texts, both
  over the ISO-8601 alphabet of digits and `-:T.+`.
- Clocks, and the outcomes of file opening, JMS and ActiveMQ calls, are
  parameters.

In two places the code does less than the messaging layer is meant to do. The
model follows the code and states the intended behaviour beside it:

- A receiver's `close` is meant to release consumer, session and connection
  independently. Each release is attempted whatever happened to the others.
  Failures are gathered into one reported diagnostic instead of being thrown.
  A second `close` is harmless. The code stops at the first failure and
  rethrows it. `ActiveMqReceiver.Close` models the code, and
  `ActiveMqReceiver.CloseIndependent` models the intended release.
- The broker is meant to be started once per process and to reach running
  whenever the TCP port is free or already taken. In the code a broker is
  created in-process only for a `vm://` URL. The configured URL is a TCP
  address, so that branch is never taken (`Broker.ConfiguredUrlIsExternal`).

`CsvUserWriter.formatUserAsCsv` passes the user's `int` id to a method that
takes a `String`. The model renders the id as its decimal text, as
`String.valueOf` would. The `UserData` class itself is not part of this model:
its fields are read from the getters the writer and the users repository call.

## Model

| member | source | states |
|---|---|---|
| Csv.EscapeText | web/src/main/java/com/userstream/web/service/CsvUserWriter.java:81-85 | The encoding RFC 4180 asks of the writer: a field is returned unchanged exactly when it holds no comma, double quote, CR or LF; otherwise it is enclosed in double quotes. Unlike the writer's own test, a carriage return forces quoting too. |
| Csv.CollapseDoubled | web/src/main/java/com/userstream/web/service/CsvUserWriter.java:82 | Collapsing each pair of double quotes undoes the doubling `replace` performs, for every field. |
| Csv.UnescapeEscape | web/src/main/java/com/userstream/web/service/CsvUserWriter.java:72-86 | Round trip: stripping the enclosing quotes of an escaped field and collapsing its doubled quotes gives the original field back. |
| Csv.ParseEscaped | web/src/main/java/com/userstream/web/service/CsvUserWriter.java:75-86 | An escaped field followed by a comma or the end of the line is read back by an RFC 4180 reader as exactly the original field, with the rest left unread. |
| Csv.ParseEncodeRecord | web/src/main/java/com/userstream/web/service/CsvUserWriter.java:59-69 | Any non-empty list of values, each escaped and joined by commas, is read back by an RFC 4180 reader as exactly that list. |
| Csv.JoinColumns | reports/src/main/java/com/userstream/service/UserReport.java:64-70 | Joining n cells with commas gives a line that splits into n columns plus one per comma inside the cells. |
| Csv.ParseJoined | web/src/main/java/com/userstream/web/service/CsvUserWriter.java:59-70 | Cells that are each an encoded value or bare text with a line break, joined by commas, read back as exactly the values when no cell is bare, and are refused when some cell is. |
| Csv.ParseJoinedBare | web/src/main/java/com/userstream/web/service/CsvUserWriter.java:59-70 | A record of encoded cells in which some cell is bare text with a line break is refused by the reader, wherever that cell stands. |
| CsvUserWriter.EscapeCsvField | web/src/main/java/com/userstream/web/service/CsvUserWriter.java:75-86 | A null field becomes the empty string, and a field without comma, quote or line feed is returned as it is. The result is the RFC 4180 encoding of the field unless the field is left unquoted with a carriage return in it; such a field stays bare text with a line break. |
| CsvUserWriter.CarriageReturnIsNotQuoted | web/src/main/java/com/userstream/web/service/CsvUserWriter.java:81 | A carriage return alone does not make a field quoted: a field without comma, quote or line feed, with a `\r` appended, is returned unchanged and is left bare. |
| CsvUserWriter.FormatDateTime | web/src/main/java/com/userstream/web/service/CsvUserWriter.java:91-96 | A null time becomes the empty field, and a set time becomes its ISO_LOCAL_DATE_TIME text, which never needs quoting. |
| CsvUserWriter.CellIsEncoding | web/src/main/java/com/userstream/web/service/CsvUserWriter.java:62-67 | Cell i is the RFC 4180 encoding of value i or bare text; id, date and flag are always encodings, and every cell is one when no string is left bare. |
| CsvUserWriter.SomeCellBare | web/src/main/java/com/userstream/web/service/CsvUserWriter.java:63-65 | If name, surname or email is left unquoted with a carriage return, one of the six cells is bare text with a line break. |
| CsvUserWriter.CellsAreEncodings | web/src/main/java/com/userstream/web/service/CsvUserWriter.java:62-67 | Each of the six cells of a user row is the RFC 4180 encoding of its value or bare text with a line break. When no string is left bare, every cell is the encoding of id, name, surname, email, creation time and active flag, in that order. |
| CsvUserWriter.FormatIsEncoding | web/src/main/java/com/userstream/web/service/CsvUserWriter.java:59-70 | When no string is left unquoted with a carriage return, the formatted row equals the RFC 4180 record of the six values: the id, the date and `true`/`false` never need quoting. |
| CsvUserWriter.FormatUserAsCsv | web/src/main/java/com/userstream/web/service/CsvUserWriter.java:59-70 | The row is accepted by an RFC 4180 reader exactly when no string is left unquoted with a carriage return, and then reads back as exactly the six values: the id text, the three strings (null read as empty), the date text (null read as empty) and `true`/`false`. |
| CsvUserWriter.CarriageReturnBreaksRecord | web/src/main/java/com/userstream/web/service/CsvUserWriter.java:81 | A user named `a\rb` gets the name written unquoted, and an RFC 4180 reader refuses the row. |
| CsvUserWriter.FormatUserQuoted | web/src/main/java/com/userstream/web/service/CsvUserWriter.java:59-85 | The row with every value encoded as RFC 4180 requires reads back as the six values for every user, and equals the written row when no string is left bare. |
| CsvUserWriter.CreatedAtReadsBack | web/src/main/java/com/userstream/web/service/CsvUserWriter.java:66 | The createdAt column reads back as the creation time's ISO_LOCAL_DATE_TIME text, or empty for a null time. |
| CsvUserWriter.HeaderParse | web/src/main/java/com/userstream/web/service/CsvUserWriter.java:19 | The header line reads back as the six column names id, name, surname, email, createdAt, active. |
| CsvUserWriter.RecordMatchesHeader | web/src/main/java/com/userstream/web/service/CsvUserWriter.java:59-69 | A user row and the header have the same six columns, lined up by position from id to active; the row reads back as its values when no string is left bare. |
| CsvUserWriter.WriteRecord | web/src/main/java/com/userstream/web/service/CsvUserWriter.java:39-54 | A failed open writes nothing and reports exactly the exception the open threw; otherwise an existing file keeps its lines and gains exactly the record, and a missing file gets the header and then the record. |
| CsvUserWriter.WriteUser | web/src/main/java/com/userstream/web/service/CsvUserWriter.java:39-54 | A failed open reports that exception and writes nothing; otherwise the file gains the user's row, after the header exactly when the file was missing, and that row reads back as the user's values when no string is left bare. |
| CsvUserWriter.AfterWrite | web/src/main/java/com/userstream/web/service/CsvUserWriter.java:39-54 | After a failed write the file is as it was; after a successful one it holds its earlier lines, or the header for a new file, followed by the user's row. |
| CsvUserWriter.Appended | web/src/main/java/com/userstream/web/service/CsvUserWriter.java:39-54 | The appended rows are empty exactly when every open fails. |
| CsvUserWriter.AppendedRows | web/src/main/java/com/userstream/web/service/CsvUserWriter.java:39-54 | Every appended row is the formatted row of a user whose open succeeded. |
| CsvUserWriter.AppendUsers | web/src/main/java/com/userstream/web/service/CsvUserWriter.java:43-52 | Writing users to an existing file keeps its lines and adds the rows of the successful writes in order. |
| CsvUserWriter.RecordIsNotHeader | web/src/main/java/com/userstream/web/service/CsvUserWriter.java:47-52 | No user row is equal to the header line, so the header can only come from a fresh file. |
| CsvUserWriter.FreshFileContents | web/src/main/java/com/userstream/web/service/CsvUserWriter.java:41-52 | Writing users into a missing file, some of whose opens fail: the file appears with the first successful write, holding the header and then the row of each successful write in order. |
| CsvUserWriter.HeaderWrittenOnce | web/src/main/java/com/userstream/web/service/CsvUserWriter.java:41-52 | No row appended by a sequence of writes is the header line, so the header appears only once, at the start. |
| Text.DecimalRoundTrip | reports/src/main/java/com/userstream/service/UserReport.java:65 | The decimal text of any integer, as `%s` and `String.valueOf` print it, parses back to that integer. |
| Text.Contains | notification/src/main/java/com/userstream/mq/Broker.java:20 | `contains` is true exactly when the searched text occurs at some position of the message. |
| UserReport.NewReport | reports/src/main/java/com/userstream/service/UserReport.java:15-21 | The four-argument constructor copies id, name, surname and email and sets the creation time to the clock reading. |
| UserReport.HeaderParse | reports/src/main/java/com/userstream/service/UserReport.java:73-75 | The report header reads back as the five names ID, Name, Surname, Email, Created At. |
| UserReport.HeaderColumnCount | reports/src/main/java/com/userstream/service/UserReport.java:73-75 | The report header splits into exactly five comma-separated columns. |
| UserReport.CreatedAtText | reports/src/main/java/com/userstream/service/UserReport.java:69 | A null creation time prints as `null`, and a set one as its `toString` text, which holds no comma, quote or line break. |
| UserReport.RowLayout | reports/src/main/java/com/userstream/service/UserReport.java:63-71 | The row is the id text, name, surname, email and creation time, in that order, separated by single commas; the id text parses back to the id. |
| UserReport.ToCsvRow | reports/src/main/java/com/userstream/service/UserReport.java:63-71 | Split on every comma, the row has five columns plus one for each comma inside the name, surname and email texts. |
| UserReport.RowHasHeaderColumns | reports/src/main/java/com/userstream/service/UserReport.java:63-75 | The row has as many columns as the header exactly when none of name, surname and email holds a comma. |
| UserReport.PlainRowParses | reports/src/main/java/com/userstream/service/UserReport.java:63-71 | When no string needs quoting, an RFC 4180 reader reads the row back as the five texts, with null printed as `null`. |
| UserReport.CommaInNameBreaksRow | reports/src/main/java/com/userstream/service/UserReport.java:64-70 | A report whose name is `a,b` gives a row of six columns against the header's five. |
| UserReport.ToCsvRowEscaped | reports/src/main/java/com/userstream/service/UserReport.java:63-71 | The escaped row reads back by an RFC 4180 reader as the five texts, one per header column, whatever they contain. |
| UserReport.EscapedAgreesWhenPlain | reports/src/main/java/com/userstream/service/UserReport.java:63-71 | When no string needs quoting, the escaped row is the row `toCSVRow` writes. |
| UserRepository.Save | users/src/main/java/com/userstream/repository/InMemoryUserRepository.java:15-18 | `save` returns its argument; afterwards the user is stored under its id, the key set gains that id, and every other entry is unchanged. |
| UserRepository.FindById | users/src/main/java/com/userstream/repository/InMemoryUserRepository.java:21-23 | `findById` finds a user exactly when the id is stored, and then it is the stored user. |
| UserRepository.FindByUsername | users/src/main/java/com/userstream/repository/InMemoryUserRepository.java:26-30 | The result is a stored user whose name equals the argument, with no earlier user in iteration order matching; it is empty exactly when no stored user has that name. |
| UserRepository.FindByEmail | users/src/main/java/com/userstream/repository/InMemoryUserRepository.java:33-37 | The result is a stored user whose email equals the argument, with no earlier user in iteration order matching; it is empty exactly when no stored user has that email. |
| UserRepository.FindAll | users/src/main/java/com/userstream/repository/InMemoryUserRepository.java:40-42 | Entry i of the list is the user stored under the i-th key of the iteration order, so there is one entry per stored key; it holds every stored user and nothing that is not stored. |
| UserRepository.DeleteById | users/src/main/java/com/userstream/repository/InMemoryUserRepository.java:45-47 | The result is true exactly when the id was stored; afterwards the id is gone and every other entry is unchanged; for an absent id the store is unchanged. |
| UserRepository.SaveThenFind | users/src/main/java/com/userstream/repository/InMemoryUserRepository.java:15-23 | After `save`, `findById` on the user's id returns that user. |
| UserRepository.DeleteThenFind | users/src/main/java/com/userstream/repository/InMemoryUserRepository.java:21-47 | After `deleteById`, `findById` on that id is empty and lookups of other ids are as before. |
| NotificationRepository.Save | notification/src/main/java/com/userstream/notification/NotificationRepository.java:11-13 | A null id throws a NullPointerException; otherwise the notification is stored under its id and every other entry is unchanged. |
| NotificationRepository.FindById | notification/src/main/java/com/userstream/notification/NotificationRepository.java:15-17 | A null id throws; otherwise a notification is found exactly when the id is stored, and it is the stored one. |
| NotificationRepository.FindAll | notification/src/main/java/com/userstream/notification/NotificationRepository.java:19-21 | Entry i of the list is the notification stored under the i-th key of the iteration order, so there is one entry per stored key; it holds every stored notification and nothing else. |
| NotificationRepository.FindByUserId | notification/src/main/java/com/userstream/notification/NotificationRepository.java:23-26 | The call throws exactly when some stored notification has a null user id. Otherwise it returns every stored notification with that user id and no other. Entry i is the `findAll` entry at the i-th matching position. |
| NotificationRepository.FindByUserIdInOrder | notification/src/main/java/com/userstream/notification/NotificationRepository.java:23-26 | The result holds one notification per matching key, in iteration order. Entry i is the value under the key at position idx[i]. The positions idx increase, and they are exactly the positions whose notification has that user id. |
| NotificationRepository.MatchingInOrder | notification/src/main/java/com/userstream/notification/NotificationRepository.java:24-26 | The filter keeps exactly the notifications with that user id. They sit at the matching positions, once each, in order. |
| Enumeration.FilterAtPositions | notification/src/main/java/com/userstream/notification/NotificationRepository.java:24-26 | `filter(...).toList()` keeps the elements at the matching positions, each once and in increasing order. |
| NotificationRepository.FindByUserIdWithinAll | notification/src/main/java/com/userstream/notification/NotificationRepository.java:19-26 | The notifications found for one user form a sub-multiset of `findAll`. |
| NotificationRepository.Delete | notification/src/main/java/com/userstream/notification/NotificationRepository.java:29-31 | A null id throws; otherwise that key is removed, every other entry is unchanged, and an absent id leaves the store as it was. |
| NotificationRepository.SaveThenFind | notification/src/main/java/com/userstream/notification/NotificationRepository.java:11-17 | After saving a notification with an id, `findById` on that id returns it. |
| NotificationRepository.SaveKeepsKeyed | notification/src/main/java/com/userstream/notification/NotificationRepository.java:11-13 | If every notification is stored under its own id before a `save`, that still holds afterwards. |
| NotificationRepository.DeleteThenFind | notification/src/main/java/com/userstream/notification/NotificationRepository.java:15-31 | After `delete`, `findById` on that id is empty. |
| Notifications.NewNotification | notification/src/main/java/com/userstream/notification/Notification.java:18-26 | The constructor copies id, userId, title, content and channel, sets the status to PENDING and the creation time to the clock reading, and leaves sentAt null. |
| Notifications.SetId | notification/src/main/java/com/userstream/notification/Notification.java:33-35 | Afterwards the id is the new value and every other field is unchanged. |
| Notifications.SetUserId | notification/src/main/java/com/userstream/notification/Notification.java:41-43 | Afterwards the user id is the new value and every other field is unchanged. |
| Notifications.SetTitle | notification/src/main/java/com/userstream/notification/Notification.java:49-51 | Afterwards the title is the new value and every other field is unchanged. |
| Notifications.SetContent | notification/src/main/java/com/userstream/notification/Notification.java:57-59 | Afterwards the content is the new value and every other field is unchanged. |
| Notifications.SetChannel | notification/src/main/java/com/userstream/notification/Notification.java:65-67 | Afterwards the channel is the new value and every other field is unchanged. |
| Notifications.SetStatus | notification/src/main/java/com/userstream/notification/Notification.java:73-75 | Afterwards the status is the new value and every other field is unchanged. |
| Notifications.SetCreatedAt | notification/src/main/java/com/userstream/notification/Notification.java:81-83 | Afterwards the creation time is the new value and every other field is unchanged. |
| Notifications.SetSentAt | notification/src/main/java/com/userstream/notification/Notification.java:89-91 | Afterwards the sending time is the new value and every other field is unchanged. |
| Notifications.StatusIsUnchecked | notification/src/main/java/com/userstream/notification/Notification.java:73-75 | `setStatus` stores every value outside PENDING, SENT and FAILED, and null, as given; no other field changes. |
| NotificationService.MarkSent | notification/src/main/java/com/userstream/notification/NotificationService.java:62-63 | The sent notification has status SENT and sending time `now`, with id, user, title, content, channel and creation time unchanged. |
| NotificationService.Send | notification/src/main/java/com/userstream/notification/NotificationService.java:56-69 | An unknown id answers not found and leaves the store unchanged. A known one is marked sent under that id. On success it is also filed under its own id, the keys gain exactly that id, and the route answers with it. When `save` throws for a null id, the keys stay the same. Every other entry survives unchanged. |
| NotificationService.SendKeyed | notification/src/main/java/com/userstream/notification/NotificationService.java:60-66 | When every notification is stored under its own id, sending a stored id always succeeds and changes exactly that entry. |
| NotificationService.PendingThenSent | notification/src/main/java/com/userstream/notification/NotificationService.java:56-69 | A newly constructed notification is PENDING; once saved and sent it is stored as SENT with the sending time. |
| Alerts.NewAlert | alert/src/main/java/com/userstream/alert/Alert.java:16-23 | The constructor copies id, userId, message and type, sets the creation time to the clock reading, and starts unread. |
| Alerts.SetId | alert/src/main/java/com/userstream/alert/Alert.java:29-31 | Afterwards the id is the new value and every other field is unchanged. |
| Alerts.SetUserId | alert/src/main/java/com/userstream/alert/Alert.java:37-39 | Afterwards the user id is the new value and every other field is unchanged. |
| Alerts.SetMessage | alert/src/main/java/com/userstream/alert/Alert.java:45-47 | Afterwards the message is the new value and every other field is unchanged. |
| Alerts.SetKind | alert/src/main/java/com/userstream/alert/Alert.java:53-55 | Afterwards the type is the new value and every other field is unchanged. |
| Alerts.SetCreatedAt | alert/src/main/java/com/userstream/alert/Alert.java:61-63 | Afterwards the creation time is the new value and every other field is unchanged. |
| Alerts.SetRead | alert/src/main/java/com/userstream/alert/Alert.java:69-71 | Afterwards `isRead()` answers the new value and every other field is unchanged. |
| Alerts.Save | alert/src/main/java/com/userstream/alert/InMemoryAlertRepository.java:14-18 | A null id throws; otherwise the alert is stored under its id and every other entry is unchanged. |
| Alerts.MarkRead | alert/src/main/java/com/userstream/alert/AlertService.java:65-75 | An unknown id answers not found and leaves the store unchanged. A known one is stored read under that id. On success it is also filed under its own id, and the keys gain exactly that id. When `save` throws for a null id, the keys stay the same. Every other entry survives unchanged. |
| Alerts.MarkReadIdempotent | alert/src/main/java/com/userstream/alert/AlertService.java:67-71 | Marking an alert read twice gives the same store and the same answer as marking it once. |
| Alerts.UnreadThenRead | alert/src/main/java/com/userstream/alert/AlertService.java:65-75 | A newly constructed alert is unread; once saved and marked it is read, with every other field unchanged. |
| MQ.DestinationTypeOf | notification/src/main/java/com/userstream/mq/MQ.java:12-18 | A name has a type exactly when one of the four constants holds it, and then it is the type that constant's identifier names. |
| MQ.DestinationNamesDistinct | notification/src/main/java/com/userstream/mq/MQ.java:12-18 | The four destination names are pairwise distinct. |
| MQ.DestinationTypes | notification/src/main/java/com/userstream/mq/MQ.java:12-18 | personal_details and test_topic are topics; alert and test_queue are queues. |
| MQ.UrlIsExternal | notification/src/main/java/com/userstream/mq/MQ.java:6 | The configured URL does not start with `vm://`. |
| Broker.StartEmbedded | notification/src/main/java/com/userstream/mq/Broker.java:9-34 | A URL not starting with `vm://` creates nothing and succeeds. A `vm://` URL never gives the external case. With no failures it gives the started broker named localhost, non-persistent, without JMX and with the TCP connector. A connector error aborts unless its non-null message mentions the address in use. Startup then fails exactly when `start` fails, with the RuntimeException whose message is the fixed prefix and the cause's text. |
| Broker.StartupError | notification/src/main/java/com/userstream/mq/Broker.java:31-33 | The rethrown exception is a RuntimeException whose message is the fixed prefix followed by the cause's text. |
| Broker.Launch | notification/src/main/java/com/userstream/mq/Broker.java:26 | Starting fails exactly when `start` throws; otherwise the configured broker is running. |
| Broker.ConfiguredUrlIsExternal | notification/src/main/java/com/userstream/mq/Broker.java:11-30 | With the configured URL no embedded broker is created and startup succeeds, whatever ActiveMQ would do. |
| Broker.AddressInUseIsTolerated | notification/src/main/java/com/userstream/mq/Broker.java:17-26 | A connector error of any class whose message mentions the address in use is swallowed. Startup then ends as `start` does, and the broker has no TCP connector. |
| Broker.PortInUseIsTolerated | notification/src/main/java/com/userstream/mq/Broker.java:17-26 | The `IOException` of a taken port, whose message is the port and the phrase, is tolerated. The broker starts exactly when `start` succeeds. |
| Broker.NullMessageAborts | notification/src/main/java/com/userstream/mq/Broker.java:19-23 | A connector error with a null message aborts startup with the wrapped error. |
| Broker.AccessClass | notification/src/main/java/com/userstream/mq/Broker.java:9-34 | The first access runs the initialiser and records its outcome. A failure reaches that caller as an ExceptionInInitializerError with no message, whose cause is the startup RuntimeException with its fixed prefix. Later callers get a NoClassDefFoundError saying the class could not be initialised. Later accesses do not run the initialiser again. |
| Broker.InitialisesOnce | notification/src/main/java/com/userstream/mq/Broker.java:9-39 | A second access, including constructing another Broker, sees the first outcome whatever ActiveMQ would do this time. |
| Broker.Close | notification/src/main/java/com/userstream/mq/Broker.java:41-44 | `close()` leaves the broker state as it was. |
| ActiveMqReceiver.OnMessage | notification/src/main/java/com/userstream/mq/ActiveMqReceiver.java:30-35 | With no handler the message is dropped and nothing is invoked; with one it is invoked exactly once with that message. |
| ActiveMqReceiver.Held | notification/src/main/java/com/userstream/mq/ActiveMqReceiver.java:22-24 | The resources closed are exactly the non-null ones, in strictly increasing rank: consumer, then session, then connection. |
| ActiveMqReceiver.CloseInOrder | notification/src/main/java/com/userstream/mq/ActiveMqReceiver.java:21-27 | Resources are closed in order until the first failure, which ends the walk. |
| ActiveMqReceiver.Close | notification/src/main/java/com/userstream/mq/ActiveMqReceiver.java:20-28 | The attempted resources are a prefix of the non-null ones; it throws nothing exactly when all are closed without failure; otherwise the last attempted failed and the failure is rethrown; no field changes. |
| ActiveMqReceiver.Rethrown | notification/src/main/java/com/userstream/mq/ActiveMqReceiver.java:25-27 | A JMSException leaves as a RuntimeException with the fixed prefix and the cause's text; any other exception leaves unchanged. |
| ActiveMqReceiver.CloseWithNothingHeld | notification/src/main/java/com/userstream/mq/ActiveMqReceiver.java:22-24 | With all three resources null, `close` attempts nothing and throws nothing. |
| ActiveMqReceiver.CloseRepeats | notification/src/main/java/com/userstream/mq/ActiveMqReceiver.java:20-28 | A second `close` attempts the same resources and ends the same way as the first. |
| ActiveMqReceiver.UnassignedReceiverIsInert | notification/src/main/java/com/userstream/mq/ActiveMqReceiver.java:8-14 | As constructed, with no field ever assigned, the receiver drops every message and `close` does nothing. |
| ActiveMqReceiver.ConsumerFailureSkipsOthers | notification/src/main/java/com/userstream/mq/ActiveMqReceiver.java:21-27 | When the consumer fails to close, the session and connection are never attempted and the caller gets the wrapped exception. |
| ActiveMqReceiver.ReleaseAll | notification/src/main/java/com/userstream/mq/ActiveMqReceiver.java:22-24 | Every resource is attempted whatever the others do; every failure is collected and nothing else is. |
| ActiveMqReceiver.ReleaseAllFilters | notification/src/main/java/com/userstream/mq/ActiveMqReceiver.java:22-24 | The collected failures are those of the failing resources, one per resource and in the same order. |
| ActiveMqReceiver.ReleaseAllInOrder | notification/src/main/java/com/userstream/mq/ActiveMqReceiver.java:22-24 | Entry i is the failure of the resource at the i-th failing position. Those positions increase and are exactly the positions of the failing resources. |
| ActiveMqReceiver.CloseIndependent | notification/src/main/java/com/userstream/mq/ActiveMqReceiver.java:20-28 | Every non-null resource is attempted. Each failure is collected, one per failing resource in close order, and none is thrown. The three resources are cleared and the other fields kept. |
| ActiveMqReceiver.IndependentCloseReachesAll | notification/src/main/java/com/userstream/mq/ActiveMqReceiver.java:20-28 | With a failing consumer, the independent close still attempts session and connection and reports the one failure. |
| ActiveMqReceiver.IndependentCloseIdempotent | notification/src/main/java/com/userstream/mq/ActiveMqReceiver.java:20-28 | A second independent close attempts nothing and reports nothing. |

## Left out

- File I/O: the CSV file is the list of lines written to it. An open failure is a parameter; a failure while writing is not modelled.
- CsvUserWriter.CsvHeader is defined as the six column names joined by commas, not as the literal string. The two are the same text, but the equality of the two literals is not proved.
- UserReport.CsvHeader is defined the same way from its five column names.
- HTTP routing, JSON binding and status codes of the services. Only the bodies of the send and mark-read routes are modelled, as `NotificationService.Send` and `Alerts.MarkRead`.
- The send route reads the id with `Integer.parseInt` and looks it up in a repository that does not type-check. `NotificationService.Send` takes the id as a string and uses `NotificationRepository`.
- The only alert repository is an abstract class keyed by `Integer` that stores under a `String` id. `Alerts.Save` models it as a map from the alert id to the alert.
- The other repositories do not type-check against their records or interfaces: events, notification and reports `InMemoryUserRepository`, and `InMemoryWebRequestRepository`.
- UserRepository.FindByUsername takes a non-null argument. With a null argument `username.equals` throws a NullPointerException as soon as one user is stored, and that path is not modelled.
- UserRepository.FindByEmail: the same holds for a null email.
- UserRepository.Save takes a user value. A null user is not modelled; `user.getId()` would throw a NullPointerException.
- Alerts.Save takes an alert value. A null alert is not modelled; reading its id would throw a NullPointerException.
- NotificationService.Send stores values, not shared objects. In Java the setters mutate the one object that every key it is filed under refers to. So a later setter call on a saved notification, or on one filed under two keys, is seen through every key. The model does not show that.
- Alerts.MarkRead: the same holds for a saved alert; the model stores values, and sharing between keys is not modelled.
- NotificationRepository.Save takes a notification value. A null notification is not modelled; it would throw a NullPointerException.
- `LocalDateTime.now()`, `System.currentTimeMillis()` and UUID generation: a clock reading is a parameter, and ids are given.
- The formatting of a date (`ISO_LOCAL_DATE_TIME`, `toString`) is opaque. Only its alphabet is modelled, and it never needs quoting.
- Csv.ParseRecord refuses a double quote, CR or LF in an unquoted field, but accepts any other character there. The TEXTDATA rule of RFC 4180 admits only printable ASCII there. The model does not restrict the alphabet, so a tab or a non-ASCII letter in a name reads back as written. The reader reads one record; the CRLF record separator is not modelled.
- Broker.AccessClass: a later NoClassDefFoundError has no cause in the model. Recent JVMs attach a record of the first failure as its cause; that record is not modelled. The startup error itself stays available as `r.state.outcome.error`.
- ActiveMqReceiver.OnMessage: an exception thrown by the handler propagates out of `onMessage`. The model records the call but not its outcome, because the handler is foreign code.
- ActiveMQ and JMS internals: `BrokerService`, `addConnector`, `start` and the JMS `close` calls are abstract outcomes given as parameters.
- The console messages the broker prints are not modelled.
- Concurrency: asynchronous delivery, queue and topic fan-out, thread-safe startup, and close racing with delivery. None of these is implemented in the code.
- `getCsvFilePath`, the constructors of `CsvUserWriter`, and the plain getters are not modelled; they only return or store a field.

## Findings

| source | as written | input that shows it | evidently intended | confidence | as-written member | corrected member |
|---|---|---|---|---|---|---|
| notification/src/main/java/com/userstream/mq/ActiveMqReceiver.java:21-27 | `close` stops at the first resource that fails to close and throws | a receiver holding consumer, session and connection whose consumer fails to close: session and connection are never closed | every resource is attempted independently and failures are reported, not thrown, so a second close is harmless | medium, not executed | ActiveMqReceiver.ConsumerFailureSkipsOthers | ActiveMqReceiver.IndependentCloseReachesAll |
| web/src/main/java/com/userstream/web/service/CsvUserWriter.java:81 | `escapeCsvField` quotes a field for a comma, a double quote or a line feed, but not for a carriage return | a user named `a\rb`: the name is written unquoted, and an RFC 4180 reader refuses the row | a field holding a carriage return quoted like one holding a line feed, so that every row reads back | medium, not executed | CsvUserWriter.CarriageReturnBreaksRecord | CsvUserWriter.FormatUserQuoted |
| reports/src/main/java/com/userstream/service/UserReport.java:63-71 | `toCSVRow` joins the fields with commas and never quotes them | a report with name `a,b`: the row has six columns against the header's five | each field quoted after RFC 4180, so that the row has the header's five columns | medium, not executed | UserReport.CommaInNameBreaksRow | UserReport.ToCsvRowEscaped |

=== FILE: alert.dfy ===
/**
 * The alert service's `Alert` record and the body of its mark-read route. The
 * only repository the service has is an abstract class over a concurrent hash
 * map; the route is modelled over a map from the alert id to the alert, where
 * saving under a null id throws as such a map does.
 */
module Alerts {
  import opened Wrappers
  import opened JavaLang
  import opened JavaTime

  datatype Alert = Alert(
    id: Option<string>,
    userId: Option<string>,
    message: Option<string>,
    kind: Option<string>,
    createdAt: Option<LocalDateTime>,
    read: bool)

  /** The alert's fields, one name per setter. */
  datatype Field = IdField | UserIdField | MessageField | KindField | CreatedAtField | ReadField

  /** `a` and `b` hold the same value in every field other than `f`. */
  predicate AgreeExcept(a: Alert, b: Alert, f: Field) {
    && (f != IdField ==> a.id == b.id)
    && (f != UserIdField ==> a.userId == b.userId)
    && (f != MessageField ==> a.message == b.message)
    && (f != KindField ==> a.kind == b.kind)
    && (f != CreatedAtField ==> a.createdAt == b.createdAt)
    && (f != ReadField ==> a.read == b.read)
  }

  /** The no-argument constructor: every reference null, and unread as a boolean field starts. */
  const Blank := Alert(None, None, None, None, None, false)

  /** The four-argument constructor: copies its arguments, reads the clock (`now`), and starts unread. */
  function NewAlert(id: Option<string>, userId: Option<string>, message: Option<string>, kind: Option<string>,
                    now: LocalDateTime): (r: Alert)
    ensures r.id == id && r.userId == userId && r.message == message && r.kind == kind
    ensures r.createdAt == Some(now)
    ensures !r.read
  {
    Alert(id, userId, message, kind, Some(now), false)
  }

  function SetId(a: Alert, id: Option<string>): (r: Alert)
    ensures r.id == id && AgreeExcept(a, r, IdField)
  {
    a.(id := id)
  }

  function SetUserId(a: Alert, userId: Option<string>): (r: Alert)
    ensures r.userId == userId && AgreeExcept(a, r, UserIdField)
  {
    a.(userId := userId)
  }

  function SetMessage(a: Alert, message: Option<string>): (r: Alert)
    ensures r.message == message && AgreeExcept(a, r, MessageField)
  {
    a.(message := message)
  }

  /** `setType`. */
  function SetKind(a: Alert, kind: Option<string>): (r: Alert)
    ensures r.kind == kind && AgreeExcept(a, r, KindField)
  {
    a.(kind := kind)
  }

  function SetCreatedAt(a: Alert, createdAt: Option<LocalDateTime>): (r: Alert)
    ensures r.createdAt == createdAt && AgreeExcept(a, r, CreatedAtField)
  {
    a.(createdAt := createdAt)
  }

  /** `setRead`: afterwards `isRead()` answers `read`. */
  function SetRead(a: Alert, read: bool): (r: Alert)
    ensures r.read == read && AgreeExcept(a, r, ReadField)
  {
    a.(read := read)
  }

  type AlertStore = map<string, Alert>

  /** `save`: stores the alert under its id; the alert it returns is its argument, so only the store is modelled. */
  function Save(store: AlertStore, a: Alert): (r: Result<AlertStore, Exception>)
    ensures r.Err? <==> a.id.None?
    ensures r.Err? ==> r.error == NullPointer
    ensures r.Ok? ==> r.value.Keys == store.Keys + {a.id.value} && r.value[a.id.value] == a
    ensures r.Ok? ==> forall k | k in store && k != a.id.value :: r.value[k] == store[k]
  {
    match a.id
    case None => Err(NullPointer)
    case Some(k) => Ok(store[k := a])
  }

  /** What the route answers: 404 for an unknown id, the alert as marked, or the exception `save` threw. */
  datatype ReadResponse = NotFound | Marked(alert: Alert) | Threw(error: Exception)

  datatype ReadOutcome = ReadOutcome(store: AlertStore, response: ReadResponse)

  /**
   * The mark-read route for the alert stored under `id`: the stored object is
   * set read in place, so the change shows under `id` even if `save` then
   * throws, and `save` files it under its own id.
   */
  function MarkRead(store: AlertStore, id: string): (r: ReadOutcome)
    ensures id !in store <==> r.response.NotFound?
    ensures id !in store ==> r.store == store
    ensures id in store ==> id in r.store && r.store[id] == SetRead(store[id], true)
    ensures r.response.Marked? ==> r.response.alert == SetRead(store[id], true)
    ensures r.response.Threw? ==> store[id].id.None? && r.response.error == NullPointer
    ensures r.response.Threw? ==> r.store.Keys == store.Keys
    ensures r.response.Marked? ==> store[id].id.Some?
    ensures r.response.Marked? ==> r.store.Keys == store.Keys + {store[id].id.value}
    ensures r.response.Marked? ==> r.store[store[id].id.value] == SetRead(store[id], true)
    ensures id in store ==> forall k | k in store && k != id && Some(k) != store[id].id :: r.store[k] == store[k]
    ensures forall k | k in r.store :: (k in store && r.store[k] == store[k]) || r.store[k] == SetRead(store[id], true)
  {
    if id !in store then
      ReadOutcome(store, NotFound)
    else
      var marked := SetRead(store[id], true);
      var mutated := store[id := marked];
      match Save(mutated, marked)
      case Err(e) => ReadOutcome(mutated, Threw(e))
      case Ok(saved) => ReadOutcome(saved, Marked(marked))
  }

  /** Marking an alert read twice leaves the same store and gives the same answer as marking it once. */
  lemma MarkReadIdempotent(store: AlertStore, id: string)
    ensures MarkRead(MarkRead(store, id).store, id) == MarkRead(store, id)
  {
  }

  /** A new alert starts unread; once saved and marked it reads as read, and nothing else about it changes. */
  lemma UnreadThenRead(store: AlertStore, id: string, userId: Option<string>, message: Option<string>,
                       kind: Option<string>, now: LocalDateTime)
    ensures !NewAlert(Some(id), userId, message, kind, now).read
    ensures Save(store, NewAlert(Some(id), userId, message, kind, now)).Ok?
    ensures var saved := Save(store, NewAlert(Some(id), userId, message, kind, now)).value;
            var r := MarkRead(saved, id);
            r.response.Marked? && r.store[id].read
            && AgreeExcept(r.store[id], NewAlert(Some(id), userId, message, kind, now), ReadField)
  {
  }
}

=== FILE: broker.dfy ===
/**
 * `Broker`: its static initialiser decides, once per class initialisation,
 * whether to start an in-process ActiveMQ broker. The ActiveMQ calls are
 * abstract: `addConnector` and `start` either succeed or throw the exception
 * their failure parameter names.
 */
module Broker {
  import opened Wrappers
  import opened JavaLang
  import opened Text
  import opened MQ

  const BrokerName := "localhost"
  const ConnectorUri := "tcp://localhost:61616"
  /** The connector failure the initialiser tolerates, matched inside the exception's message. */
  const AddressInUse := "Address already in use"
  const StartFailurePrefix := "Failed to start embedded broker: "

  /** How the embedded `BrokerService` was configured, and whether it was started. */
  datatype BrokerService = BrokerService(
    name: string,
    persistent: bool,
    useJmx: bool,
    connectors: seq<string>,
    started: bool)

  /** What the static initialiser leaves behind: nothing for an external broker, or the embedded one. */
  datatype Startup = External | Embedded(service: BrokerService)

  /** A connector failure whose message is non-null and mentions the address being in use. */
  predicate Tolerated(e: Exception) {
    e.message.Some? && Contains(e.message.value, AddressInUse)
  }

  /** The `RuntimeException` every startup failure is rethrown as. */
  function StartupError(cause: Exception): (r: Exception)
    ensures r.className == RuntimeExceptionClass && r.message.Some?
    ensures StartsWith(r.message.value, StartFailurePrefix)
    ensures r.message.value[|StartFailurePrefix|..] == ExceptionText(cause)
  {
    RuntimeException(StartFailurePrefix + ExceptionText(cause))
  }

  /**
   * The static initialiser's body for the broker URL `url`. An external URL
   * creates nothing. A `vm://` URL configures a non-persistent broker named
   * localhost without JMX, tries to add the TCP connector (a failure is
   * swallowed when `Tolerated`, rethrown otherwise) and starts it. Any failure
   * surfaces as a `RuntimeException` naming its cause.
   */
  function StartEmbedded(url: string, connectorFailure: Option<Exception>, startFailure: Option<Exception>)
    : (r: Result<Startup, Exception>)
    ensures !StartsWith(url, VmScheme) ==> r == Ok(External)
    ensures StartsWith(url, VmScheme) && connectorFailure.Some? && !Tolerated(connectorFailure.value)
            ==> r == Err(StartupError(connectorFailure.value))
    ensures StartsWith(url, VmScheme) && (connectorFailure.None? || Tolerated(connectorFailure.value))
            ==> (r.Err? <==> startFailure.Some?)
    ensures StartsWith(url, VmScheme) && (connectorFailure.None? || Tolerated(connectorFailure.value)) && startFailure.Some?
            ==> r == Err(StartupError(startFailure.value))
    ensures StartsWith(url, VmScheme) && connectorFailure.None? && startFailure.None?
            ==> r == Ok(Embedded(BrokerService(BrokerName, false, false, [ConnectorUri], true)))
    ensures StartsWith(url, VmScheme) && r.Ok? ==> r.value.Embedded?
    ensures r.Err? ==> r.error.className == RuntimeExceptionClass
    ensures r.Ok? && r.value.Embedded? ==>
              && r.value.service.name == BrokerName
              && !r.value.service.persistent && !r.value.service.useJmx
              && r.value.service.started
              && (r.value.service.connectors == [ConnectorUri] <==> connectorFailure.None?)
              && (r.value.service.connectors == [] <==> connectorFailure.Some?)
  {
    if !StartsWith(url, VmScheme) then
      Ok(External)
    else
      var configured := BrokerService(BrokerName, false, false, [], false);
      match connectorFailure
      case Some(e) =>
        if !Tolerated(e) then Err(StartupError(e))
        else Launch(configured, startFailure)
      case None =>
        Launch(configured.(connectors := [ConnectorUri]), startFailure)
  }

  /** `broker.start()` on the configured service. */
  function Launch(service: BrokerService, startFailure: Option<Exception>): (r: Result<Startup, Exception>)
    ensures r.Err? <==> startFailure.Some?
    ensures r.Err? ==> r.error == StartupError(startFailure.value)
    ensures r.Ok? ==> r.value == Embedded(service.(started := true))
  {
    match startFailure
    case Some(e) => Err(StartupError(e))
    case None => Ok(Embedded(service.(started := true)))
  }

  /** With the configured URL no embedded broker is ever created, whatever ActiveMQ would do. */
  lemma ConfiguredUrlIsExternal(connectorFailure: Option<Exception>, startFailure: Option<Exception>)
    ensures StartEmbedded(Url, connectorFailure, startFailure) == Ok(External)
  {
    UrlIsExternal();
  }

  /**
   * Any connector failure whose message mentions the address in use, of any
   * exception class, is swallowed: startup goes on to `start` without the TCP
   * connector, and ends as `start` does.
   */
  lemma AddressInUseIsTolerated(url: string, e: Exception, startFailure: Option<Exception>)
    requires StartsWith(url, VmScheme) && Tolerated(e)
    ensures StartEmbedded(url, Some(e), startFailure)
              == Launch(BrokerService(BrokerName, false, false, [], false), startFailure)
    ensures startFailure.None? ==>
              StartEmbedded(url, Some(e), startFailure) == Ok(Embedded(BrokerService(BrokerName, false, false, [], true)))
  {
  }

  /** For instance, the `IOException` a taken port gives, whose message is the port followed by the phrase. */
  lemma PortInUseIsTolerated(url: string, port: string, startFailure: Option<Exception>)
    requires StartsWith(url, VmScheme)
    ensures var e := Exception("java.io.IOException", Some(port + ": " + AddressInUse));
            Tolerated(e) && StartEmbedded(url, Some(e), startFailure).Ok? == startFailure.None?
  {
    var m := port + ": " + AddressInUse;
    assert OccursAt(m, AddressInUse, |port| + 2) by {
      assert m[|port| + 2..] == AddressInUse;
    }
    AddressInUseIsTolerated(url, Exception("java.io.IOException", Some(m)), startFailure);
  }

  /** A connector failure with a null message aborts startup, whatever `start` would do. */
  lemma NullMessageAborts(url: string, className: string, startFailure: Option<Exception>)
    requires StartsWith(url, VmScheme)
    ensures StartEmbedded(url, Some(Exception(className, None)), startFailure)
              == Err(StartupError(Exception(className, None)))
  {
  }

  const InitializerErrorClass := "java.lang.ExceptionInInitializerError"
  const NoClassDefFoundClass := "java.lang.NoClassDefFoundError"
  /** The message the JVM gives the NoClassDefFoundError of a class whose initialiser failed. */
  const CouldNotInitialize := "Could not initialize class com.userstream.mq.Broker"

  /** Whether the class has been initialised, and how its static initialiser ended. */
  datatype ClassState = Uninitialised | Initialised(outcome: Result<Startup, Exception>)

  /**
   * Touching the class, e.g. `new Broker()`: the class state afterwards, what
   * the caller sees, and the `getCause()` of the error it sees, if any.
   */
  datatype Access = Access(state: ClassState, result: Result<Startup, Exception>, cause: Option<Exception>)

  /**
   * The first access runs the static initialiser; a failure reaches that caller
   * as an ExceptionInInitializerError with no message whose cause is the
   * startup RuntimeException, and every later one as a NoClassDefFoundError
   * saying the class could not be initialised. Later accesses never run the
   * initialiser again.
   */
  function AccessClass(state: ClassState, url: string, connectorFailure: Option<Exception>,
                       startFailure: Option<Exception>): (r: Access)
    ensures state.Uninitialised? ==> r.state == Initialised(StartEmbedded(url, connectorFailure, startFailure))
    ensures state.Initialised? ==> r.state == state
    ensures r.result.Ok? <==> r.state.outcome.Ok?
    ensures r.result.Ok? ==> r.result == r.state.outcome
    ensures r.result.Err? && state.Uninitialised? ==> r.result.error == Exception(InitializerErrorClass, None)
    ensures r.result.Err? && state.Uninitialised? ==> r.cause == Some(r.state.outcome.error)
    ensures r.result.Err? && state.Uninitialised? ==>
              StartsWith(r.cause.value.message.value, StartFailurePrefix)
    ensures r.result.Err? && state.Initialised? ==> r.result.error == Exception(NoClassDefFoundClass, Some(CouldNotInitialize))
    ensures r.result.Ok? || state.Initialised? ==> r.cause.None?
  {
    match state
    case Uninitialised =>
      var outcome := StartEmbedded(url, connectorFailure, startFailure);
      if outcome.Ok? then Access(Initialised(outcome), outcome, None)
      else Access(Initialised(outcome), Err(Exception(InitializerErrorClass, None)), Some(outcome.error))
    case Initialised(outcome) =>
      if outcome.Ok? then Access(state, outcome, None)
      else Access(state, Err(Exception(NoClassDefFoundClass, Some(CouldNotInitialize))), None)
  }

  /** A second access sees the first one's outcome, whatever ActiveMQ would do this time. */
  lemma InitialisesOnce(url: string, c1: Option<Exception>, s1: Option<Exception>,
                        c2: Option<Exception>, s2: Option<Exception>)
    ensures var first := AccessClass(Uninitialised, url, c1, s1);
            var second := AccessClass(first.state, url, c2, s2);
            second.state == first.state
            && (first.result.Ok? ==> second.result == first.result)
            && (first.result.Err? ==> second.result.Err?)
  {
  }

  /** `close()`: the broker, embedded or not, is left as it was. */
  function Close(state: ClassState): (r: ClassState)
    ensures r == state
  {
    state
  }
}

=== FILE: csv.dfy ===
/**
 * Field quoting after section 2 of RFC 4180 (rules 6 and 7), together with a
 * reader for one record, which is the partner every writer below is checked
 * against: a field is enclosed in double quotes when it holds a comma, a double
 * quote or a line-break character (CR or LF), and a double quote inside such a
 * field is written twice. The reader refuses an unquoted field holding a double
 * quote, a CR or an LF, none of which the grammar's TEXTDATA admits.
 */
module Csv {
  import opened Wrappers
  import opened Text

  const Comma: char := ','
  const Quote: char := '"'
  const LineFeed: char := '\n'
  const CarriageReturn: char := '\r'

  /** The characters that force quoting: the separator, the quote and both line-break characters. */
  predicate NeedsQuoting(s: string) {
    Comma in s || Quote in s || LineFeed in s || CarriageReturn in s
  }

  /** `s.replace("\"", "\"\"")`: every double quote written twice. */
  function DoubleQuotes(s: string): (r: string)
    ensures |r| >= |s|
  {
    if |s| == 0 then []
    else (if s[0] == Quote then [Quote, Quote] else [s[0]]) + DoubleQuotes(s[1..])
  }

  /** Undoes `DoubleQuotes`: each pair of double quotes becomes one. */
  function CollapseQuotes(s: string): string {
    if |s| == 0 then []
    else if |s| >= 2 && s[0] == Quote && s[1] == Quote then [Quote] + CollapseQuotes(s[2..])
    else [s[0]] + CollapseQuotes(s[1..])
  }

  lemma {:induction false} CollapseDoubled(s: string)
    ensures CollapseQuotes(DoubleQuotes(s)) == s
  {
    if |s| > 0 {
      CollapseDoubled(s[1..]);
      var tail := DoubleQuotes(s[1..]);
      if s[0] == Quote {
        assert DoubleQuotes(s) == [Quote, Quote] + tail;
        assert (DoubleQuotes(s))[2..] == tail;
      } else {
        assert DoubleQuotes(s) == [s[0]] + tail;
        assert (DoubleQuotes(s))[1..] == tail;
      }
    }
  }

  /** Strips the enclosing quotes of a quoted field and collapses its doubled quotes; other text is kept. */
  function Unescape(cell: string): string {
    if |cell| >= 2 && cell[0] == Quote && cell[|cell| - 1] == Quote then CollapseQuotes(cell[1..|cell| - 1])
    else cell
  }

  /** The RFC 4180 encoding of a non-null field. */
  function EscapeText(s: string): (r: string)
    ensures r == s <==> !NeedsQuoting(s)
    ensures NeedsQuoting(s) ==> |r| >= 2 && r[0] == Quote && r[|r| - 1] == Quote
  {
    if NeedsQuoting(s) then [Quote] + DoubleQuotes(s) + [Quote] else s
  }

  /** Stripping the quotes of an encoded field and collapsing its doubled quotes gives the field back. */
  lemma UnescapeEscape(s: string)
    ensures Unescape(EscapeText(s)) == s
  {
    if NeedsQuoting(s) {
      var r := EscapeText(s);
      assert r[1..|r| - 1] == DoubleQuotes(s);
      CollapseDoubled(s);
    }
  }

  /** Joins already-encoded cells with commas. */
  function JoinCells(cells: seq<string>): string
    requires |cells| >= 1
  {
    if |cells| == 1 then cells[0] else cells[0] + [Comma] + JoinCells(cells[1..])
  }

  /** How many comma-separated columns a line splits into when quotes are not honoured. */
  function Columns(line: string): nat {
    CountChar(line, Comma) + 1
  }

  /** The commas inside the cells themselves. */
  function CommasIn(cells: seq<string>): nat {
    if |cells| == 0 then 0 else CountChar(cells[0], Comma) + CommasIn(cells[1..])
  }

  /** Joining n cells adds n - 1 separating commas to those the cells already hold. */
  lemma {:induction false} JoinColumns(cells: seq<string>)
    requires |cells| >= 1
    ensures Columns(JoinCells(cells)) == |cells| + CommasIn(cells)
  {
    if |cells| == 1 {
      assert cells[1..] == [];
    } else {
      JoinColumns(cells[1..]);
      CountConcat(cells[0] + [Comma], JoinCells(cells[1..]), Comma);
      CountConcat(cells[0], [Comma], Comma);
    }
  }

  lemma JoinCons(first: string, rest: seq<string>)
    requires |rest| >= 1
    ensures JoinCells([first] + rest) == first + [Comma] + JoinCells(rest)
  {
    assert ([first] + rest)[1..] == rest;
  }

  lemma CommasCons(first: string, rest: seq<string>)
    ensures CommasIn([first] + rest) == CountChar(first, Comma) + CommasIn(rest)
  {
    assert ([first] + rest)[1..] == rest;
  }

  lemma {:induction false} NoCommasIn(cells: seq<string>)
    requires forall i | 0 <= i < |cells| :: Comma !in cells[i]
    ensures CommasIn(cells) == 0
  {
    if |cells| > 0 {
      NoCommasIn(cells[1..]);
    }
  }

  /** One record: every value encoded with `EscapeText`, separated by commas. */
  function EncodeRecord(values: seq<string>): string
    requires |values| >= 1
  {
    if |values| == 1 then EscapeText(values[0])
    else EscapeText(values[0]) + [Comma] + EncodeRecord(values[1..])
  }

  // ---------------------------------------------------------------------------
  // Reading a record back.

  /** An unquoted field runs up to the next comma; the rest is returned unread. */
  function ScanPlain(s: string): (r: (string, string))
    ensures r.0 + r.1 == s
    ensures Comma !in r.0
    ensures |r.1| == 0 || r.1[0] == Comma
  {
    if |s| == 0 || s[0] == Comma then ([], s)
    else
      var p := ScanPlain(s[1..]);
      ConsPlain(s, p.0, p.1);
      ([s[0]] + p.0, p.1)
  }

  lemma ConsPlain(s: string, f: string, rest: string)
    requires |s| > 0 && s[0] != Comma
    requires f + rest == s[1..] && Comma !in f
    ensures ([s[0]] + f) + rest == s
    ensures Comma !in [s[0]] + f
  {
    ConcatAssoc([s[0]], f, rest);
    assert s == [s[0]] + s[1..];
  }

  /**
   * The body of a quoted field, read after its opening quote: a doubled quote
   * stands for one quote, a single quote closes the field. None when the field
   * is never closed.
   */
  function ScanQuoted(s: string): (r: Option<(string, string)>)
    ensures r.Some? ==> |r.value.1| < |s|
  {
    if |s| == 0 then None
    else if s[0] == Quote then
      if |s| >= 2 && s[1] == Quote then
        match ScanQuoted(s[2..])
        case None => None
        case Some((f, rest)) => Some(([Quote] + f, rest))
      else Some(([], s[1..]))
    else
      match ScanQuoted(s[1..])
      case None => None
      case Some((f, rest)) => Some(([s[0]] + f, rest))
  }

  /**
   * One field, quoted or not, and the unread rest of the text. None for an
   * unclosed quote, or for an unquoted field holding a quote or a line break.
   */
  function ParseField(s: string): (r: Option<(string, string)>)
    ensures r.Some? ==> |r.value.1| <= |s|
  {
    if |s| > 0 && s[0] == Quote then ScanQuoted(s[1..])
    else
      var p := ScanPlain(s);
      if NeedsQuoting(p.0) then None else Some(p)
  }

  /** All fields of one record; None for an unclosed quote or text after a closing quote. */
  function ParseRecord(s: string): Option<seq<string>>
    decreases |s|
  {
    match ParseField(s)
    case None => None
    case Some((f, rest)) =>
      if |rest| == 0 then Some([f])
      else if rest[0] != Comma then None
      else
        match ParseRecord(rest[1..])
        case None => None
        case Some(fs) => Some([f] + fs)
  }

  /** What may follow a field inside a record: nothing, or the comma before the next field. */
  predicate AtFieldEnd(t: string) {
    |t| == 0 || t[0] == Comma
  }

  lemma {:induction false} ScanPlainStops(v: string, t: string)
    requires Comma !in v && AtFieldEnd(t)
    ensures ScanPlain(v + t) == (v, t)
  {
    if |v| > 0 {
      assert (v + t)[1..] == v[1..] + t;
      ScanPlainStops(v[1..], t);
      assert [v[0]] + v[1..] == v;
    } else {
      assert v + t == t;
    }
  }

  /** The first step of reading a doubled field: one source character, possibly written twice. */
  lemma ScanQuotedStep(c: char, tail: string)
    ensures c == Quote ==> ScanQuoted([Quote, Quote] + tail) == match ScanQuoted(tail)
      case None => None
      case Some((f, rest)) => Some(([Quote] + f, rest))
    ensures c != Quote ==> ScanQuoted([c] + tail) == match ScanQuoted(tail)
      case None => None
      case Some((f, rest)) => Some(([c] + f, rest))
  {
    if c == Quote {
      assert ([Quote, Quote] + tail)[2..] == tail;
    } else {
      assert ([c] + tail)[1..] == tail;
    }
  }

  lemma DoubledSplit(v: string, t: string)
    requires |v| > 0
    ensures v[0] == Quote ==> DoubleQuotes(v) + [Quote] + t == [Quote, Quote] + (DoubleQuotes(v[1..]) + [Quote] + t)
    ensures v[0] != Quote ==> DoubleQuotes(v) + [Quote] + t == [v[0]] + (DoubleQuotes(v[1..]) + [Quote] + t)
  {
    var x := if v[0] == Quote then [Quote, Quote] else [v[0]];
    var d := DoubleQuotes(v[1..]);
    assert DoubleQuotes(v) == x + d;
    ConcatAssoc(x, d, [Quote] + t);
    ConcatAssoc(x + d, [Quote], t);
    ConcatAssoc(d, [Quote], t);
  }

  lemma ConcatAssoc(a: string, b: string, c: string)
    ensures (a + b) + c == a + (b + c)
  {
  }

  lemma {:induction false} ScanQuotedDoubled(v: string, t: string)
    requires AtFieldEnd(t)
    ensures ScanQuoted(DoubleQuotes(v) + [Quote] + t) == Some((v, t))
  {
    if |v| == 0 {
      var s := [Quote] + t;
      assert DoubleQuotes(v) + [Quote] + t == s;
      assert s[1..] == t;
      assert |s| >= 2 ==> s[1] == Comma;
    } else {
      var tail := DoubleQuotes(v[1..]) + [Quote] + t;
      ScanQuotedDoubled(v[1..], t);
      ScanQuotedStep(v[0], tail);
      DoubledSplit(v, t);
      assert [v[0]] + v[1..] == v;
    }
  }

  lemma ParseQuotedField(v: string, t: string)
    requires AtFieldEnd(t)
    ensures ParseField([Quote] + DoubleQuotes(v) + [Quote] + t) == Some((v, t))
  {
    var s := [Quote] + DoubleQuotes(v) + [Quote] + t;
    assert s[1..] == DoubleQuotes(v) + [Quote] + t;
    ScanQuotedDoubled(v, t);
  }

  lemma ParsePlainField(v: string, t: string)
    requires AtFieldEnd(t) && !NeedsQuoting(v)
    ensures ParseField(v + t) == Some((v, t))
  {
    ScanPlainStops(v, t);
    if |v| > 0 {
      assert (v + t)[0] == v[0];
    } else {
      assert v + t == t;
    }
  }

  /** An encoded field, followed by the end of the record or a comma, reads back as the field. */
  lemma ParseEscaped(v: string, t: string)
    requires AtFieldEnd(t)
    ensures ParseField(EscapeText(v) + t) == Some((v, t))
  {
    if NeedsQuoting(v) {
      ParseQuotedField(v, t);
    } else {
      ParsePlainField(v, t);
    }
  }

  /** Unquoted text holding a line break, but no comma or quote: what a writer that forgets to quote it leaves. */
  predicate BareLineBreak(cell: string) {
    Comma !in cell && Quote !in cell && (CarriageReturn in cell || LineFeed in cell)
  }

  /** The reader refuses a field with a bare line break, whatever follows it. */
  lemma ParseBare(cell: string, t: string)
    requires BareLineBreak(cell) && AtFieldEnd(t)
    ensures ParseField(cell + t) == None
  {
    ScanPlainStops(cell, t);
    assert (cell + t)[0] == cell[0];
  }

  /** No encoded field has a bare line break: an encoding either needs no quoting or starts with a quote. */
  lemma BareIsNotEncoding(cell: string, v: string)
    requires BareLineBreak(cell)
    ensures cell != EscapeText(v)
  {
    if NeedsQuoting(v) {
      assert EscapeText(v)[0] == Quote;
    }
  }

  /** A record is its first cell followed by the end of the record or a comma and the remaining cells. */
  lemma JoinSplit(cells: seq<string>)
    requires |cells| >= 1
    ensures |cells| == 1 ==> JoinCells(cells) == cells[0] + []
    ensures |cells| > 1 ==> JoinCells(cells) == cells[0] + ([Comma] + JoinCells(cells[1..]))
  {
    if |cells| > 1 {
      ConcatAssoc(cells[0], [Comma], JoinCells(cells[1..]));
    }
  }

  /** A record in which some cell is bare text, every earlier cell being an encoding, is refused. */
  lemma {:induction false} ParseJoinedBare(cells: seq<string>, values: seq<string>)
    requires |cells| == |values| >= 1
    requires forall i | 0 <= i < |cells| :: cells[i] == EscapeText(values[i]) || BareLineBreak(cells[i])
    requires exists i | 0 <= i < |cells| :: BareLineBreak(cells[i])
    ensures ParseRecord(JoinCells(cells)) == None
  {
    JoinSplit(cells);
    if BareLineBreak(cells[0]) {
      ParseBare(cells[0], if |cells| == 1 then [] else [Comma] + JoinCells(cells[1..]));
    } else {
      var i :| 0 <= i < |cells| && BareLineBreak(cells[i]);
      assert i > 0;
      var t := [Comma] + JoinCells(cells[1..]);
      ParseEscaped(values[0], t);
      assert t[1..] == JoinCells(cells[1..]);
      assert BareLineBreak(cells[1..][i - 1]);
      ParseJoinedBare(cells[1..], values[1..]);
    }
  }

  /**
   * Cells that are each either an encoded value or bare text, joined by
   * commas: the record reads back as the values exactly when no cell is bare,
   * and is refused otherwise.
   */
  lemma ParseJoined(cells: seq<string>, values: seq<string>)
    requires |cells| == |values| >= 1
    requires forall i | 0 <= i < |cells| :: cells[i] == EscapeText(values[i]) || BareLineBreak(cells[i])
    ensures (forall i | 0 <= i < |cells| :: cells[i] == EscapeText(values[i])) ==> ParseRecord(JoinCells(cells)) == Some(values)
    ensures (exists i | 0 <= i < |cells| :: BareLineBreak(cells[i])) ==> ParseRecord(JoinCells(cells)) == None
  {
    if forall i | 0 <= i < |cells| :: cells[i] == EscapeText(values[i]) {
      EncodeIsJoin(values, cells);
      ParseEncodeRecord(values);
    }
    if exists i | 0 <= i < |cells| :: BareLineBreak(cells[i]) {
      ParseJoinedBare(cells, values);
    }
  }

  /** Round trip: reading an encoded record gives back exactly its values, in order. */
  lemma {:induction false} ParseEncodeRecord(values: seq<string>)
    requires |values| >= 1
    ensures ParseRecord(EncodeRecord(values)) == Some(values)
  {
    if |values| == 1 {
      ParseEscaped(values[0], []);
      assert EncodeRecord(values) == EscapeText(values[0]) + [];
      assert ParseField(EncodeRecord(values)) == Some((values[0], []));
      assert values == [values[0]];
    } else {
      var t := [Comma] + EncodeRecord(values[1..]);
      assert EncodeRecord(values) == EscapeText(values[0]) + t;
      ParseEscaped(values[0], t);
      assert t[1..] == EncodeRecord(values[1..]);
      ParseEncodeRecord(values[1..]);
      assert [values[0]] + values[1..] == values;
    }
  }

  /** Encoding a record is joining its escaped values. */
  lemma {:induction false} EncodeIsJoin(values: seq<string>, cells: seq<string>)
    requires |values| == |cells| >= 1
    requires forall i | 0 <= i < |values| :: cells[i] == EscapeText(values[i])
    ensures EncodeRecord(values) == JoinCells(cells)
  {
    if |values| > 1 {
      EncodeIsJoin(values[1..], cells[1..]);
    }
  }

  /** Cells that need no quoting can be joined as they are. */
  lemma {:induction false} PlainCellsEncode(values: seq<string>)
    requires |values| >= 1
    requires forall i :: 0 <= i < |values| ==> !NeedsQuoting(values[i])
    ensures EncodeRecord(values) == JoinCells(values)
  {
    if |values| > 1 {
      PlainCellsEncode(values[1..]);
    }
  }
}

=== FILE: csv_user_writer.dfy ===
/**
 * The web module's `CsvUserWriter`: renders a user as one CSV record and
 * appends it to a file, writing the header line first when the file is new.
 * The file is modelled as the list of records `println` has written to it.
 */
module CsvUserWriter {
  import opened Wrappers
  import opened JavaLang
  import opened JavaTime
  import opened Text
  import opened Csv
  import opened Users

  /** The header's column names, in order. */
  const HeaderColumns := ["id", "name", "surname", "email", "createdAt", "active"]

  /** The header line: the column names joined by commas, "id,name,surname,email,createdAt,active". */
  const CsvHeader := JoinCells(HeaderColumns)

  /** The test `escapeCsvField` makes before quoting: a comma, a double quote or a line feed. */
  predicate WriterQuotes(s: string) {
    Comma in s || Quote in s || LineFeed in s
  }

  /** A field the writer leaves unquoted although it holds a carriage return, which RFC 4180 only allows quoted. */
  predicate LeavesBare(s: string) {
    CarriageReturn in s && !WriterQuotes(s)
  }

  /**
   * `escapeCsvField`: null becomes the empty field; a field holding a comma, a
   * double quote or a line feed is quoted with its quotes doubled; any other
   * field, a carriage return included, is returned as it is.
   */
  function EscapeCsvField(field: Option<string>): (r: string)
    ensures field.None? ==> r == ""
    ensures field.Some? && !WriterQuotes(field.value) ==> r == field.value
    ensures !LeavesBare(field.GetOr("")) ==> r == EscapeText(field.GetOr(""))
    ensures LeavesBare(field.GetOr("")) ==> BareLineBreak(r)
  {
    match field
    case None => ""
    case Some(s) => if WriterQuotes(s) then [Quote] + DoubleQuotes(s) + [Quote] else s
  }

  /** A carriage return does not cause quoting: only a comma, a double quote or a line feed does. */
  lemma CarriageReturnIsNotQuoted(s: string)
    requires !WriterQuotes(s)
    ensures EscapeCsvField(Some(s + "\r")) == s + "\r"
    ensures LeavesBare(s + "\r")
  {
    assert (s + "\r")[|s|] == CarriageReturn;
  }

  /** `formatDateTime`: null becomes the empty field, a date its ISO_LOCAL_DATE_TIME text. */
  function FormatDateTime(dateTime: Option<LocalDateTime>): (r: string)
    ensures dateTime.None? ==> r == ""
    ensures dateTime.Some? ==> r == dateTime.value.isoText
    ensures !NeedsQuoting(r)
  {
    match dateTime
    case None => ""
    case Some(d) =>
      assert forall i | 0 <= i < |d.isoText| :: IsIsoChar(d.isoText[i]);
      d.isoText
  }

  /**
   * The values a user's record carries, in header order: the id's decimal text
   * (the source passes the id where a String is expected; this is the text
   * `String.valueOf` gives), the three strings with null read as empty, the
   * creation time, and the active flag.
   */
  function UserCsvValues(user: UserData): seq<string> {
    [ DecimalText(user.id), user.name.GetOr(""), user.surname.GetOr(""), user.email.GetOr(""),
      FormatDateTime(user.createdAt), BoolText(user.active) ]
  }

  lemma DecimalTextIsPlain(n: int)
    ensures !NeedsQuoting(DecimalText(n))
  {
  }

  lemma BoolTextIsPlain(b: bool)
    ensures !NeedsQuoting(BoolText(b))
  {
  }

  /** None of the user's three strings is left unquoted with a carriage return in it. */
  predicate QuotedAsRequired(user: UserData) {
    !LeavesBare(user.name.GetOr("")) && !LeavesBare(user.surname.GetOr("")) && !LeavesBare(user.email.GetOr(""))
  }

  /**
   * `formatUserAsCsv`: the six fields joined by commas. Read back as an
   * RFC 4180 record it gives exactly the six values, in header order, unless
   * the writer left a carriage return unquoted, in which case it is refused.
   */
  function FormatUserAsCsv(user: UserData): (r: string)
    ensures QuotedAsRequired(user) <==> ParseRecord(r).Some?
    ensures QuotedAsRequired(user) ==> ParseRecord(r) == Some(UserCsvValues(user))
  {
    CellsAreEncodings(user);
    SomeCellBare(user);
    ParseJoined(UserCsvCells(user), UserCsvValues(user));
    JoinCells(UserCsvCells(user))
  }

  /** The six cells `formatUserAsCsv` appends: four escaped fields, the date and the flag as they are. */
  function UserCsvCells(user: UserData): seq<string> {
    [ EscapeCsvField(Some(DecimalText(user.id))), EscapeCsvField(user.name),
      EscapeCsvField(user.surname), EscapeCsvField(user.email),
      FormatDateTime(user.createdAt), BoolText(user.active) ]
  }

  /** Cell `i` is the RFC 4180 encoding of value `i`, or bare text with a line break; only the three strings can be bare. */
  lemma CellIsEncoding(user: UserData, i: int)
    requires 0 <= i < 6
    ensures UserCsvCells(user)[i] == EscapeText(UserCsvValues(user)[i]) || BareLineBreak(UserCsvCells(user)[i])
    ensures i == 0 || i == 4 || i == 5 ==> UserCsvCells(user)[i] == EscapeText(UserCsvValues(user)[i])
    ensures QuotedAsRequired(user) ==> UserCsvCells(user)[i] == EscapeText(UserCsvValues(user)[i])
  {
    var cells := UserCsvCells(user);
    var vs := UserCsvValues(user);
    if i == 0 {
      DecimalTextIsPlain(user.id);
      assert cells[0] == DecimalText(user.id) == vs[0];
    } else if i == 1 {
      assert cells[1] == EscapeCsvField(user.name) && vs[1] == user.name.GetOr("");
    } else if i == 2 {
      assert cells[2] == EscapeCsvField(user.surname) && vs[2] == user.surname.GetOr("");
    } else if i == 3 {
      assert cells[3] == EscapeCsvField(user.email) && vs[3] == user.email.GetOr("");
    } else if i == 4 {
      assert cells[4] == vs[4];
    } else {
      BoolTextIsPlain(user.active);
      assert cells[5] == vs[5];
    }
  }

  /** Every cell is an encoding or bare text, and every cell is an encoding when the strings are quoted as required. */
  lemma CellsAreEncodings(user: UserData)
    ensures |UserCsvCells(user)| == |UserCsvValues(user)| == 6
    ensures forall i | 0 <= i < 6 :: UserCsvCells(user)[i] == EscapeText(UserCsvValues(user)[i])
                                     || BareLineBreak(UserCsvCells(user)[i])
    ensures QuotedAsRequired(user) ==> forall i | 0 <= i < 6 :: UserCsvCells(user)[i] == EscapeText(UserCsvValues(user)[i])
  {
    forall i | 0 <= i < 6
      ensures UserCsvCells(user)[i] == EscapeText(UserCsvValues(user)[i]) || BareLineBreak(UserCsvCells(user)[i])
      ensures QuotedAsRequired(user) ==> UserCsvCells(user)[i] == EscapeText(UserCsvValues(user)[i])
    {
      CellIsEncoding(user, i);
    }
  }

  /** A string left unquoted with a carriage return gives a bare cell. */
  lemma SomeCellBare(user: UserData)
    ensures !QuotedAsRequired(user) ==> exists i | 0 <= i < 6 :: BareLineBreak(UserCsvCells(user)[i])
  {
    if !QuotedAsRequired(user) {
      if LeavesBare(user.name.GetOr("")) {
        assert BareLineBreak(UserCsvCells(user)[1]);
      } else if LeavesBare(user.surname.GetOr("")) {
        assert BareLineBreak(UserCsvCells(user)[2]);
      } else {
        assert BareLineBreak(UserCsvCells(user)[3]);
      }
    }
  }

  /** Where every field is quoted as required, the formatted row is the RFC 4180 encoding of the user's values. */
  lemma FormatIsEncoding(user: UserData)
    requires QuotedAsRequired(user)
    ensures FormatUserAsCsv(user) == EncodeRecord(UserCsvValues(user))
  {
    CellsAreEncodings(user);
    EncodeIsJoin(UserCsvValues(user), UserCsvCells(user));
  }

  /** A name holding a carriage return is written unquoted, and the row is then refused by an RFC 4180 reader. */
  lemma CarriageReturnBreaksRecord(user: UserData)
    requires user.name == Some("a\rb")
    ensures EscapeCsvField(user.name) == "a\rb"
    ensures ParseRecord(FormatUserAsCsv(user)) == None
  {
    assert "a\rb"[1] == CarriageReturn;
    assert LeavesBare("a\rb");
  }

  /** The row as RFC 4180 has it: every value encoded, a carriage return quoted like a line feed. */
  function FormatUserQuoted(user: UserData): (r: string)
    ensures ParseRecord(r) == Some(UserCsvValues(user))
    ensures QuotedAsRequired(user) ==> r == FormatUserAsCsv(user)
  {
    ParseEncodeRecord(UserCsvValues(user));
    var r := EncodeRecord(UserCsvValues(user));
    if QuotedAsRequired(user) then FormatIsEncoding(user); r else r
  }

  /** The header line, read as an RFC 4180 record, gives the six column names. */
  lemma HeaderParse()
    ensures ParseRecord(CsvHeader) == Some(HeaderColumns)
  {
    PlainCellsEncode(HeaderColumns);
    ParseEncodeRecord(HeaderColumns);
  }

  /** A user record has as many fields as the header has columns, and they line up by name. */
  lemma RecordMatchesHeader(user: UserData)
    ensures ParseRecord(CsvHeader) == Some(HeaderColumns)
    ensures QuotedAsRequired(user) ==> ParseRecord(FormatUserAsCsv(user)) == Some(UserCsvValues(user))
    ensures |HeaderColumns| == |UserCsvValues(user)| == 6
    ensures HeaderColumns[0] == "id" && UserCsvValues(user)[0] == DecimalText(user.id)
    ensures HeaderColumns[5] == "active" && UserCsvValues(user)[5] == BoolText(user.active)
  {
    HeaderParse();
  }

  /** The createdAt column reads back as the creation time's ISO_LOCAL_DATE_TIME text, or empty for a null time. */
  lemma CreatedAtReadsBack(user: UserData)
    requires QuotedAsRequired(user)
    ensures HeaderColumns[4] == "createdAt"
    ensures user.createdAt.Some? ==> ParseRecord(FormatUserAsCsv(user)).value[4] == user.createdAt.value.isoText
    ensures user.createdAt.None? ==> ParseRecord(FormatUserAsCsv(user)).value[4] == ""
  {
  }

  /** The CSV file before a write: missing, or holding the records written so far. */
  datatype CsvFile = Missing | Present(records: seq<string>)

  /** What `writeUser` leaves behind: the file's records, or the IOException it threw. */
  datatype WriteOutcome = Written(records: seq<string>) | WriteFailed(error: Exception)

  /**
   * The body of `writeUser` once the row is formatted: the file is opened for
   * appending (created if missing); the header is written first exactly when
   * the file did not exist, then the record. `openFailure` stands for an
   * IOException from opening the file, in which case nothing is written.
   */
  function WriteRecord(file: CsvFile, record: string, openFailure: Option<Exception>): (r: WriteOutcome)
    ensures openFailure.Some? <==> r.WriteFailed?
    ensures r.WriteFailed? ==> r.error == openFailure.value
    ensures r.Written? ==> file.Present? ==> r.records == file.records + [record]
    ensures r.Written? ==> file.Missing? ==> r.records == [CsvHeader, record]
  {
    match openFailure
    case Some(e) => WriteFailed(e)
    case None =>
      var existing := if file.Present? then file.records else [];
      var header := if file.Missing? then [CsvHeader] else [];
      Written(existing + header + [record])
  }

  /**
   * `writeUser`: appends the user's formatted record, after the header when the
   * file is new; the record written reads back as the user's six values.
   */
  function WriteUser(file: CsvFile, user: UserData, openFailure: Option<Exception>): (r: WriteOutcome)
    ensures openFailure.Some? <==> r.WriteFailed?
    ensures r.WriteFailed? ==> r.error == openFailure.value
    ensures r.Written? ==> r.records == (if file.Present? then file.records else [CsvHeader]) + [FormatUserAsCsv(user)]
    ensures r.Written? && QuotedAsRequired(user) ==> ParseRecord(r.records[|r.records| - 1]) == Some(UserCsvValues(user))
  {
    WriteRecord(file, FormatUserAsCsv(user), openFailure)
  }

  /** A user record is never the header line: its first field is a number, not "id". */
  lemma RecordIsNotHeader(user: UserData)
    ensures FormatUserAsCsv(user) != CsvHeader
  {
    HeaderParse();
  }

  /** The file after one `writeUser` call: a failed write leaves it as it was. */
  function AfterWrite(file: CsvFile, user: UserData, openFailure: Option<Exception>): (r: CsvFile)
    ensures openFailure.Some? ==> r == file
    ensures openFailure.None? ==> r == Present((if file.Present? then file.records else [CsvHeader]) + [FormatUserAsCsv(user)])
  {
    match WriteUser(file, user, openFailure)
    case Written(records) => Present(records)
    case WriteFailed(_) => file
  }

  /**
   * Writes the users one after another; `failures[i]` says whether opening the
   * file fails for the `i`-th. A failed write leaves the file as it was: the
   * caller reports the IOException and moves on.
   */
  function WriteUsers(file: CsvFile, users: seq<UserData>, failures: seq<Option<Exception>>): CsvFile
    requires |failures| == |users|
    decreases |users|
  {
    if |users| == 0 then file
    else WriteUsers(AfterWrite(file, users[0], failures[0]), users[1..], failures[1..])
  }

  /** The row a write appends: the user's record, or nothing when opening the file fails. */
  function RowWritten(user: UserData, openFailure: Option<Exception>): seq<string> {
    if openFailure.None? then [FormatUserAsCsv(user)] else []
  }

  /** The records of the users whose write succeeded, in order. */
  function Appended(users: seq<UserData>, failures: seq<Option<Exception>>): (r: seq<string>)
    requires |failures| == |users|
    ensures |r| == 0 <==> forall i | 0 <= i < |users| :: failures[i].Some?
    decreases |users|
  {
    if |users| == 0 then []
    else
      var rest := Appended(users[1..], failures[1..]);
      assert forall i | 1 <= i < |users| :: failures[i] == failures[1..][i - 1];
      RowWritten(users[0], failures[0]) + rest
  }

  /** Every appended record is the row of a user whose write succeeded. */
  lemma {:induction false} AppendedRows(users: seq<UserData>, failures: seq<Option<Exception>>)
    requires |failures| == |users|
    ensures forall x | x in Appended(users, failures) ::
              exists i | 0 <= i < |users| :: failures[i].None? && x == FormatUserAsCsv(users[i])
    decreases |users|
  {
    if |users| > 0 {
      AppendedRows(users[1..], failures[1..]);
      forall x | x in Appended(users, failures)
        ensures exists i | 0 <= i < |users| :: failures[i].None? && x == FormatUserAsCsv(users[i])
      {
        if x in RowWritten(users[0], failures[0]) {
          assert failures[0].None? && x == FormatUserAsCsv(users[0]);
        } else {
          var j :| 0 <= j < |users| - 1 && failures[1..][j].None? && x == FormatUserAsCsv(users[1..][j]);
          assert failures[j + 1].None? && x == FormatUserAsCsv(users[j + 1]);
        }
      }
    }
  }

  /** One successful or failed write to an existing file adds the row it writes, if any, to the end. */
  lemma WriteUsersStep(lines: seq<string>, users: seq<UserData>, failures: seq<Option<Exception>>)
    requires |failures| == |users| > 0
    ensures WriteUsers(Present(lines), users, failures)
         == WriteUsers(Present(lines + RowWritten(users[0], failures[0])), users[1..], failures[1..])
  {
    assert AfterWrite(Present(lines), users[0], failures[0]) == Present(lines + RowWritten(users[0], failures[0]));
  }

  /** The rows appended by a sequence of writes are those of the first write, then those of the rest. */
  lemma AppendedStep(users: seq<UserData>, failures: seq<Option<Exception>>)
    requires |failures| == |users| > 0
    ensures Appended(users, failures) == RowWritten(users[0], failures[0]) + Appended(users[1..], failures[1..])
  {
  }

  lemma {:induction false} AppendUsers(lines: seq<string>, users: seq<UserData>, failures: seq<Option<Exception>>)
    requires |failures| == |users|
    ensures WriteUsers(Present(lines), users, failures) == Present(lines + Appended(users, failures))
    decreases |users|
  {
    if |users| > 0 {
      var row := RowWritten(users[0], failures[0]);
      var rest := Appended(users[1..], failures[1..]);
      WriteUsersStep(lines, users, failures);
      AppendedStep(users, failures);
      AppendUsers(lines + row, users[1..], failures[1..]);
      ConcatAssocRows(lines, row, rest);
    }
  }

  lemma ConcatAssocRows(a: seq<string>, b: seq<string>, c: seq<string>)
    ensures (a + b) + c == a + (b + c)
  {
  }

  /**
   * Writing users into a missing file: the file appears with the first
   * successful write, holding the header once, as its first line, and then one
   * record per successful write in order.
   */
  lemma {:induction false} FreshFileContents(users: seq<UserData>, failures: seq<Option<Exception>>)
    requires |failures| == |users|
    ensures WriteUsers(Missing, users, failures)
         == if |Appended(users, failures)| == 0 then Missing else Present([CsvHeader] + Appended(users, failures))
    decreases |users|
  {
    if |users| > 0 {
      var row := RowWritten(users[0], failures[0]);
      var rest := Appended(users[1..], failures[1..]);
      assert WriteUsers(Missing, users, failures) == WriteUsers(AfterWrite(Missing, users[0], failures[0]), users[1..], failures[1..]);
      AppendedStep(users, failures);
      if failures[0].None? {
        assert AfterWrite(Missing, users[0], failures[0]) == Present([CsvHeader] + row);
        AppendUsers([CsvHeader] + row, users[1..], failures[1..]);
        ConcatAssocRows([CsvHeader], row, rest);
      } else {
        assert row == [];
        assert row + rest == rest;
        FreshFileContents(users[1..], failures[1..]);
      }
    }
  }

  /** The header is written once: no record a write appends is the header line. */
  lemma HeaderWrittenOnce(users: seq<UserData>, failures: seq<Option<Exception>>)
    requires |failures| == |users|
    ensures forall x | x in Appended(users, failures) :: x != CsvHeader
  {
    AppendedRows(users, failures);
    forall x | x in Appended(users, failures) ensures x != CsvHeader {
      var i :| 0 <= i < |users| && failures[i].None? && x == FormatUserAsCsv(users[i]);
      RecordIsNotHeader(users[i]);
    }
  }
}

=== FILE: enumeration.dfy ===
/**
 * Iterating over the values of a hash map. Java's `values()` visits every entry
 * once in an order the map does not promise; the model makes that order an
 * explicit parameter: a listing of the keys with no repetitions.
 */
module Enumeration {
  import opened Wrappers

  /** `order` lists every key of `m`, each exactly once. */
  ghost predicate IsOrderOf<K, V>(order: seq<K>, m: map<K, V>) {
    && (forall i, j :: 0 <= i < j < |order| ==> order[i] != order[j])
    && (forall k | k in m :: k in order)
    && (forall i | 0 <= i < |order| :: order[i] in m)
  }

  lemma {:induction false} OrderCoversKeys<K>(order: seq<K>, keys: set<K>)
    requires forall i, j :: 0 <= i < j < |order| ==> order[i] != order[j]
    requires forall k | k in keys :: k in order
    requires forall i | 0 <= i < |order| :: order[i] in keys
    ensures |order| == |keys|
  {
    if |order| > 0 {
      var rest := order[1..];
      forall k | k in keys - {order[0]} ensures k in rest {
        var i :| 0 <= i < |order| && order[i] == k;
        assert rest[i - 1] == k;
      }
      forall i | 0 <= i < |rest| ensures rest[i] in keys - {order[0]} {
        assert rest[i] == order[i + 1];
      }
      OrderCoversKeys(rest, keys - {order[0]});
    }
  }

  /** `new ArrayList<>(m.values())`: the stored values in iteration order. */
  function ValuesInOrder<K, V(==)>(m: map<K, V>, order: seq<K>): (r: seq<V>)
    requires forall i :: 0 <= i < |order| ==> order[i] in m
    ensures |r| == |order|
    ensures forall i :: 0 <= i < |r| ==> r[i] in m.Values
  {
    if |order| == 0 then [] else [m[order[0]]] + ValuesInOrder(m, order[1..])
  }

  /** Entry `i` of the value list is the value stored under the `i`-th key of the order. */
  lemma {:induction false} ValuesInOrderAt<K, V>(m: map<K, V>, order: seq<K>, i: int)
    requires forall j :: 0 <= j < |order| ==> order[j] in m
    requires 0 <= i < |order|
    ensures ValuesInOrder(m, order)[i] == m[order[i]]
  {
    if i > 0 {
      ValuesInOrderAt(m, order[1..], i - 1);
    }
  }

  /** `findAll`: one value per stored key, every stored value present, nothing else. */
  lemma ValuesInOrderExact<K, V>(m: map<K, V>, order: seq<K>)
    requires IsOrderOf(order, m)
    ensures |ValuesInOrder(m, order)| == |m|
    ensures forall k :: k in m ==> m[k] in ValuesInOrder(m, order)
    ensures forall v :: v in ValuesInOrder(m, order) ==> exists k :: k in m && m[k] == v
    ensures forall i :: 0 <= i < |order| ==> ValuesInOrder(m, order)[i] == m[order[i]]
  {
    OrderCoversKeys(order, m.Keys);
    var r := ValuesInOrder(m, order);
    forall i | 0 <= i < |order| ensures r[i] == m[order[i]] {
      ValuesInOrderAt(m, order, i);
    }
    forall k | k in m ensures m[k] in r {
      var i :| 0 <= i < |order| && order[i] == k;
      ValuesInOrderAt(m, order, i);
    }
    forall v | v in r ensures exists k :: k in m && m[k] == v {
      var i :| 0 <= i < |r| && r[i] == v;
      ValuesInOrderAt(m, order, i);
      assert m[order[i]] == v;
    }
  }

  /** `stream().filter(p).findFirst()` as a position: the first index whose element satisfies `p`. */
  function FirstMatch<T>(s: seq<T>, p: T -> bool): (r: Option<nat>)
    ensures r.Some? ==> r.value < |s| && p(s[r.value])
    ensures r.Some? ==> forall j :: 0 <= j < r.value ==> !p(s[j])
    ensures r.None? ==> forall j :: 0 <= j < |s| ==> !p(s[j])
  {
    if |s| == 0 then None
    else if p(s[0]) then Some(0)
    else match FirstMatch(s[1..], p)
      case None => None
      case Some(i) => Some(i + 1)
  }

  /** `stream().filter(p).toList()`: the elements satisfying `p`, in their original order. */
  function Filter<T>(s: seq<T>, p: T -> bool): (r: seq<T>)
    ensures forall i | 0 <= i < |r| :: r[i] in s && p(r[i])
    ensures forall i | 0 <= i < |s| && p(s[i]) :: s[i] in r
    ensures |r| <= |s|
  {
    if |s| == 0 then []
    else if p(s[0]) then [s[0]] + Filter(s[1..], p)
    else Filter(s[1..], p)
  }

  /** The positions of the elements satisfying `p`, in increasing order: the indices a filter keeps. */
  function Positions<T>(s: seq<T>, p: T -> bool): (r: seq<nat>)
    ensures forall i | 0 <= i < |r| :: r[i] < |s| && p(s[r[i]])
    ensures forall i, j | 0 <= i < j < |r| :: r[i] < r[j]
    ensures forall j | 0 <= j < |s| && p(s[j]) :: j in r
  {
    PositionsFrom(s, p, 0)
  }

  /** The positions at or after `lo` whose elements satisfy `p`, in increasing order. */
  function PositionsFrom<T>(s: seq<T>, p: T -> bool, lo: nat): (r: seq<nat>)
    requires lo <= |s|
    ensures forall i | 0 <= i < |r| :: lo <= r[i] < |s| && p(s[r[i]])
    ensures forall i, j | 0 <= i < j < |r| :: r[i] < r[j]
    ensures forall j | lo <= j < |s| && p(s[j]) :: j in r
    decreases |s| - lo
  {
    if lo == |s| then []
    else if p(s[lo]) then [lo] + PositionsFrom(s, p, lo + 1)
    else PositionsFrom(s, p, lo + 1)
  }

  /** `Filter` keeps exactly the elements at `Positions`, each once and in order. */
  lemma FilterAtPositions<T>(s: seq<T>, p: T -> bool)
    ensures |Filter(s, p)| == |Positions(s, p)|
    ensures forall i | 0 <= i < |Filter(s, p)| :: Filter(s, p)[i] == s[Positions(s, p)[i]]
  {
    FilterFrom(s, p, 0);
    assert s[0..] == s;
  }

  lemma {:induction false} FilterFrom<T>(s: seq<T>, p: T -> bool, lo: nat)
    requires lo <= |s|
    ensures |Filter(s[lo..], p)| == |PositionsFrom(s, p, lo)|
    ensures forall i | 0 <= i < |Filter(s[lo..], p)| :: Filter(s[lo..], p)[i] == s[PositionsFrom(s, p, lo)[i]]
    decreases |s| - lo
  {
    if lo < |s| {
      FilterFrom(s, p, lo + 1);
      var f := Filter(s[lo..], p);
      var t := Filter(s[lo + 1..], p);
      var q := PositionsFrom(s, p, lo);
      var qt := PositionsFrom(s, p, lo + 1);
      assert s[lo..][0] == s[lo];
      assert s[lo..][1..] == s[lo + 1..];
      if p(s[lo]) {
        assert f == [s[lo]] + t;
        assert q == [lo] + qt;
        forall i | 0 <= i < |f| ensures f[i] == s[q[i]] {
          if i > 0 {
            assert f[i] == t[i - 1] && q[i] == qt[i - 1];
          }
        }
      } else {
        assert f == t && q == qt;
      }
    }
  }

  /** A filtered list takes each element at most as often as the original holds it. */
  lemma {:induction false} FilterSubMultiset<T>(s: seq<T>, p: T -> bool)
    ensures multiset(Filter(s, p)) <= multiset(s)
  {
    if |s| > 0 {
      FilterSubMultiset(s[1..], p);
      assert s == [s[0]] + s[1..];
    }
  }
}

=== FILE: java_lang.dfy ===
/**
 * The few pieces of java.lang the modelled code relies on: exceptions with
 * nullable messages, 32-bit integers, and how `String.valueOf` / `%s` render
 * booleans and null references.
 */
module JavaLang {
  import opened Wrappers

  /** Java's `int`. */
  type Int32 = x: int | -0x8000_0000 <= x < 0x8000_0000

  /** A thrown exception: its class name and its message, which may be null. */
  datatype Exception = Exception(className: string, message: Option<string>)

  const RuntimeExceptionClass := "java.lang.RuntimeException"
  const NullPointerExceptionClass := "java.lang.NullPointerException"

  /** `Throwable.toString()`: the class name, followed by ": " and the message when there is one. */
  function ExceptionText(e: Exception): (r: string)
    ensures e.className <= r
    ensures e.message.None? ==> r == e.className
    ensures e.message.Some? ==> r[|e.className|..] == ": " + e.message.value
  {
    match e.message
    case None => e.className
    case Some(m) => e.className + ": " + m
  }

  /** `new RuntimeException(message)`. */
  function RuntimeException(message: string): Exception {
    Exception(RuntimeExceptionClass, Some(message))
  }

  /** The exception the JVM raises when a null reference is dereferenced. */
  const NullPointer := Exception(NullPointerExceptionClass, None)

  /** `String.valueOf(boolean)`. */
  function BoolText(b: bool): string {
    if b then "true" else "false"
  }

  /** `%s` applied to a possibly-null String: null prints as the four letters `null`. */
  function NullableText(s: Option<string>): string {
    s.GetOr("null")
  }
}

=== FILE: java_time.dfy ===
/**
 * java.time.LocalDateTime, kept opaque. The model never computes a date; it
 * only needs the two texts a date renders to: `ISO_LOCAL_DATE_TIME` formatting
 * (used by the CSV writer) and `toString()` (used by `%s`). Both are written in
 * the ISO-8601 alphabet: digits, '-', ':', 'T', '.', and '+' for years past 9999.
 */
module JavaTime {

  predicate IsIsoChar(c: char) {
    ('0' <= c <= '9') || c == '-' || c == ':' || c == 'T' || c == '.' || c == '+'
  }

  predicate IsIsoText(s: string) {
    forall i :: 0 <= i < |s| ==> IsIsoChar(s[i])
  }

  datatype DateTimeTexts = DateTimeTexts(isoText: string, displayText: string)

  /** A date-time, seen through its two renderings. */
  type LocalDateTime = d: DateTimeTexts | IsIsoText(d.isoText) && IsIsoText(d.displayText)
    witness DateTimeTexts("2000-01-01T00:00:00", "2000-01-01T00:00")
}

=== FILE: mq.dfy ===
/**
 * The `MQ` interface's constants: the broker URL, the credentials, the four
 * destination names and the two destination types. The destination constants'
 * identifiers end in `_TOPIC` or `_QUEUE`; `Destinations` records that pairing.
 */
module MQ {
  import opened Wrappers
  import opened Text
  import opened Enumeration

  const Url := "tcp://localhost:61616"
  const User := "admin"
  /** The constant the interface spells `PASSAWD`. */
  const Password := "admin"

  const PersonalDetailsTopic := "personal_details"
  const AlertQueue := "alert"
  const TestTopic := "test_topic"
  const TestQueue := "test_queue"

  /** The scheme that selects the in-process broker. */
  const VmScheme := "vm://"

  datatype DestinationType = Queue | Topic

  datatype Destination = Destination(name: string, kind: DestinationType)

  /** The four destinations, each with the type its constant's identifier names. */
  const Destinations := [
    Destination(PersonalDetailsTopic, Topic),
    Destination(AlertQueue, Queue),
    Destination(TestTopic, Topic),
    Destination(TestQueue, Queue)
  ]

  /** The type of the named destination, or None for a name no constant holds. */
  function DestinationTypeOf(name: string): (r: Option<DestinationType>)
    ensures r.None? <==> forall i | 0 <= i < |Destinations| :: Destinations[i].name != name
    ensures r.Some? ==> exists i | 0 <= i < |Destinations| :: Destinations[i] == Destination(name, r.value)
  {
    match FirstMatch(Destinations, (d: Destination) => d.name == name)
    case None => None
    case Some(i) => Some(Destinations[i].kind)
  }

  /** No two destination constants share a name. */
  lemma DestinationNamesDistinct()
    ensures forall i, j | 0 <= i < j < |Destinations| :: Destinations[i].name != Destinations[j].name
  {
  }

  /** `personal_details` and `test_topic` are topics; `alert` and `test_queue` are queues. */
  lemma DestinationTypes()
    ensures DestinationTypeOf(PersonalDetailsTopic) == Some(Topic)
    ensures DestinationTypeOf(AlertQueue) == Some(Queue)
    ensures DestinationTypeOf(TestTopic) == Some(Topic)
    ensures DestinationTypeOf(TestQueue) == Some(Queue)
  {
    TypeOfListed(0);
    TypeOfListed(1);
    TypeOfListed(2);
    TypeOfListed(3);
  }

  /** Each listed destination's name looks up its own type. */
  lemma TypeOfListed(i: int)
    requires 0 <= i < |Destinations|
    ensures DestinationTypeOf(Destinations[i].name) == Some(Destinations[i].kind)
  {
  }

  /** The configured URL is a TCP address, not the in-process scheme. */
  lemma UrlIsExternal()
    ensures !StartsWith(Url, VmScheme)
  {
    assert Url[0] != VmScheme[0];
  }
}

=== FILE: notification.dfy ===
/**
 * The notification service's `Notification` record. Every field is a
 * reference and may be null; the status is free text, although the field's
 * comment names three values.
 */
module Notifications {
  import opened Wrappers
  import opened JavaTime

  const Pending := "PENDING"
  const Sent := "SENT"
  const Failed := "FAILED"

  datatype Notification = Notification(
    id: Option<string>,
    userId: Option<string>,
    title: Option<string>,
    content: Option<string>,
    channel: Option<string>,
    status: Option<string>,
    createdAt: Option<LocalDateTime>,
    sentAt: Option<LocalDateTime>)

  /** The notification's fields, one name per setter. */
  datatype Field = IdField | UserIdField | TitleField | ContentField | ChannelField
                 | StatusField | CreatedAtField | SentAtField

  /** `a` and `b` hold the same value in every field other than `f`. */
  predicate AgreeExcept(a: Notification, b: Notification, f: Field) {
    && (f != IdField ==> a.id == b.id)
    && (f != UserIdField ==> a.userId == b.userId)
    && (f != TitleField ==> a.title == b.title)
    && (f != ContentField ==> a.content == b.content)
    && (f != ChannelField ==> a.channel == b.channel)
    && (f != StatusField ==> a.status == b.status)
    && (f != CreatedAtField ==> a.createdAt == b.createdAt)
    && (f != SentAtField ==> a.sentAt == b.sentAt)
  }

  /** The no-argument constructor: every field null. */
  const Blank := Notification(None, None, None, None, None, None, None, None)

  /**
   * The five-argument constructor: copies its arguments, starts the status at
   * PENDING, reads the clock (`now`) for the creation time and leaves the
   * sending time null.
   */
  function NewNotification(id: Option<string>, userId: Option<string>, title: Option<string>,
                           content: Option<string>, channel: Option<string>, now: LocalDateTime): (r: Notification)
    ensures r.id == id && r.userId == userId && r.title == title
    ensures r.content == content && r.channel == channel
    ensures r.status == Some(Pending)
    ensures r.createdAt == Some(now) && r.sentAt.None?
  {
    Notification(id, userId, title, content, channel, Some(Pending), Some(now), None)
  }

  function SetId(n: Notification, id: Option<string>): (r: Notification)
    ensures r.id == id && AgreeExcept(n, r, IdField)
  {
    n.(id := id)
  }

  function SetUserId(n: Notification, userId: Option<string>): (r: Notification)
    ensures r.userId == userId && AgreeExcept(n, r, UserIdField)
  {
    n.(userId := userId)
  }

  function SetTitle(n: Notification, title: Option<string>): (r: Notification)
    ensures r.title == title && AgreeExcept(n, r, TitleField)
  {
    n.(title := title)
  }

  function SetContent(n: Notification, content: Option<string>): (r: Notification)
    ensures r.content == content && AgreeExcept(n, r, ContentField)
  {
    n.(content := content)
  }

  function SetChannel(n: Notification, channel: Option<string>): (r: Notification)
    ensures r.channel == channel && AgreeExcept(n, r, ChannelField)
  {
    n.(channel := channel)
  }

  /** `setStatus` accepts any text, not only the three named statuses. */
  function SetStatus(n: Notification, status: Option<string>): (r: Notification)
    ensures r.status == status && AgreeExcept(n, r, StatusField)
  {
    n.(status := status)
  }

  function SetCreatedAt(n: Notification, createdAt: Option<LocalDateTime>): (r: Notification)
    ensures r.createdAt == createdAt && AgreeExcept(n, r, CreatedAtField)
  {
    n.(createdAt := createdAt)
  }

  function SetSentAt(n: Notification, sentAt: Option<LocalDateTime>): (r: Notification)
    ensures r.sentAt == sentAt && AgreeExcept(n, r, SentAtField)
  {
    n.(sentAt := sentAt)
  }

  /** The status is never checked: every text outside PENDING, SENT and FAILED is stored as given, and so is null. */
  lemma StatusIsUnchecked(n: Notification, status: Option<string>)
    requires status.Some? ==> status.value != Pending && status.value != Sent && status.value != Failed
    ensures SetStatus(n, status).status == status
    ensures SetStatus(n, status).userId == n.userId && SetStatus(n, status).sentAt == n.sentAt
  {
  }
}

=== FILE: notification_repository.dfy ===
/**
 * The notification service's `NotificationRepository`: a concurrent hash map
 * from the notification id to the notification. A concurrent hash map refuses
 * null keys, so storing, looking up or removing under a null id throws a
 * NullPointerException; those calls return `Err`.
 */
module NotificationRepository {
  import opened Wrappers
  import opened JavaLang
  import opened Enumeration
  import opened Notifications

  type NotificationStore = map<string, Notification>

  /** Every notification is stored under its own id, as `save` files it. */
  predicate Keyed(store: NotificationStore) {
    forall k | k in store :: store[k].id == Some(k)
  }

  /** `save`: stores the notification under its id, replacing any previous entry. */
  function Save(store: NotificationStore, n: Notification): (r: Result<NotificationStore, Exception>)
    ensures r.Err? <==> n.id.None?
    ensures r.Err? ==> r.error == NullPointer
    ensures r.Ok? ==> r.value.Keys == store.Keys + {n.id.value} && r.value[n.id.value] == n
    ensures r.Ok? ==> forall k | k in store && k != n.id.value :: r.value[k] == store[k]
  {
    match n.id
    case None => Err(NullPointer)
    case Some(id) => Ok(store[id := n])
  }

  /** `findById`: the notification stored under `id`, or empty. */
  function FindById(store: NotificationStore, id: Option<string>): (r: Result<Option<Notification>, Exception>)
    ensures r.Err? <==> id.None?
    ensures r.Ok? ==> (r.value.Some? <==> id.value in store)
    ensures r.Ok? && r.value.Some? ==> r.value.value == store[id.value]
  {
    match id
    case None => Err(NullPointer)
    case Some(k) => Ok(if k in store then Some(store[k]) else None)
  }

  /** `findAll`, with the map's iteration order made explicit. */
  function FindAll(store: NotificationStore, order: seq<string>): (r: seq<Notification>)
    requires IsOrderOf(order, store)
    ensures |r| == |store| == |order|
    ensures forall i | 0 <= i < |r| :: r[i] == store[order[i]]
    ensures forall k | k in store :: store[k] in r
    ensures forall n | n in r :: exists k :: k in store && store[k] == n
  {
    ValuesInOrderExact(store, order);
    ValuesInOrder(store, order)
  }

  /** `n.getUserId().equals(userId)` for a notification with a user id: false when `userId` is null. */
  predicate MatchesUser(n: Notification, userId: Option<string>) {
    n.userId.Some? && n.userId == userId
  }

  /** The filter's predicate, as a value. */
  function ForUser(userId: Option<string>): Notification -> bool {
    n => MatchesUser(n, userId)
  }

  lemma ForUserMeans(userId: Option<string>)
    ensures forall n :: ForUser(userId)(n) == MatchesUser(n, userId)
  {
  }

  /**
   * `findByUserId`: the stored notifications whose user id equals `userId`, in
   * iteration order. The filter calls `equals` on every stored user id, so a
   * single stored notification with a null user id makes the call throw; a
   * null argument matches nothing.
   */
  function FindByUserId(store: NotificationStore, order: seq<string>, userId: Option<string>)
    : (r: Result<seq<Notification>, Exception>)
    requires IsOrderOf(order, store)
    ensures r.Err? <==> exists k | k in store :: store[k].userId.None?
    ensures r.Err? ==> r.error == NullPointer
    ensures r.Ok? ==> forall i | 0 <= i < |r.value| :: r.value[i] in FindAll(store, order)
    ensures r.Ok? ==> forall i | 0 <= i < |r.value| :: r.value[i].userId.Some? && r.value[i].userId == userId
    ensures r.Ok? ==> forall k | k in store && userId.Some? && store[k].userId == userId :: store[k] in r.value
    ensures r.Ok? ==> |r.value| == |Positions(FindAll(store, order), ForUser(userId))|
    ensures r.Ok? ==> forall i | 0 <= i < |r.value| ::
                        r.value[i] == FindAll(store, order)[Positions(FindAll(store, order), ForUser(userId))[i]]
  {
    var all := FindAll(store, order);
    if exists i | 0 <= i < |all| :: all[i].userId.None? then
      Err(NullPointer)
    else
      NoNullUserIds(store, order);
      Ok(MatchingInOrder(all, userId))
  }

  /** When no listed notification lacks a user id, no stored one does. */
  lemma NoNullUserIds(store: NotificationStore, order: seq<string>)
    requires IsOrderOf(order, store)
    requires forall i | 0 <= i < |FindAll(store, order)| :: FindAll(store, order)[i].userId.Some?
    ensures forall k | k in store :: store[k].userId.Some?
  {
    var all := FindAll(store, order);
    forall k | k in store ensures store[k].userId.Some? {
      var i :| 0 <= i < |all| && all[i] == store[k];
    }
  }

  /** The stream filter itself: the listed notifications for `userId`, at their matching positions. */
  function MatchingInOrder(all: seq<Notification>, userId: Option<string>): (r: seq<Notification>)
    ensures forall i | 0 <= i < |r| :: r[i] in all && MatchesUser(r[i], userId)
    ensures forall i | 0 <= i < |all| && MatchesUser(all[i], userId) :: all[i] in r
    ensures |r| == |Positions(all, ForUser(userId))|
    ensures forall i | 0 <= i < |r| :: r[i] == all[Positions(all, ForUser(userId))[i]]
  {
    ForUserMeans(userId);
    FilterAtPositions(all, ForUser(userId));
    Filter(all, ForUser(userId))
  }

  /** The notifications found for one user are drawn from those `findAll` lists, none repeated beyond its count there. */
  lemma FindByUserIdWithinAll(store: NotificationStore, order: seq<string>, userId: Option<string>)
    requires IsOrderOf(order, store)
    requires FindByUserId(store, order, userId).Ok?
    ensures multiset(FindByUserId(store, order, userId).value) <= multiset(FindAll(store, order))
  {
    FilterSubMultiset(FindAll(store, order), ForUser(userId));
  }

  /**
   * The notifications found for one user are those stored under the keys that
   * match, one per key, in iteration order: entry `i` is stored under the
   * `idx[i]`-th key, the positions `idx` increase, and they are exactly the
   * positions whose notification has that user id.
   */
  lemma FindByUserIdInOrder(store: NotificationStore, order: seq<string>, userId: Option<string>)
    requires IsOrderOf(order, store)
    requires FindByUserId(store, order, userId).Ok?
    ensures var r := FindByUserId(store, order, userId).value;
            var idx := Positions(FindAll(store, order), ForUser(userId));
            && |r| == |idx|
            && (forall i | 0 <= i < |r| :: idx[i] < |order| && r[i] == store[order[idx[i]]])
            && (forall i, j | 0 <= i < j < |idx| :: idx[i] < idx[j])
            && (forall j | 0 <= j < |order| :: j in idx <==> MatchesUser(store[order[j]], userId))
  {
    var all := FindAll(store, order);
    var idx := Positions(all, ForUser(userId));
    forall j | 0 <= j < |order| ensures j in idx <==> MatchesUser(store[order[j]], userId) {
      assert all[j] == store[order[j]];
      assert ForUser(userId)(all[j]) == MatchesUser(all[j], userId);
    }
  }

  /** `delete`: removes the entry for `id`; an absent id leaves the store as it was. */
  function Delete(store: NotificationStore, id: Option<string>): (r: Result<NotificationStore, Exception>)
    ensures r.Err? <==> id.None?
    ensures r.Ok? ==> r.value.Keys == store.Keys - {id.value}
    ensures r.Ok? ==> forall k | k in r.value :: r.value[k] == store[k]
    ensures r.Ok? && id.value !in store ==> r.value == store
  {
    match id
    case None => Err(NullPointer)
    case Some(k) => Ok(store - {k})
  }

  /** After a successful `save`, `findById` on the notification's id returns it. */
  lemma SaveThenFind(store: NotificationStore, n: Notification)
    requires n.id.Some?
    ensures Save(store, n).Ok?
    ensures FindById(Save(store, n).value, n.id) == Ok(Some(n))
  {
  }

  /** `save` keeps every notification filed under its own id. */
  lemma SaveKeepsKeyed(store: NotificationStore, n: Notification)
    requires Keyed(store)
    ensures Save(store, n).Ok? ==> Keyed(Save(store, n).value)
  {
  }

  /** After `delete`, `findById` on that id is empty. */
  lemma DeleteThenFind(store: NotificationStore, id: string)
    ensures Delete(store, Some(id)).Ok?
    ensures FindById(Delete(store, Some(id)).value, Some(id)) == Ok(None)
  {
  }
}

=== FILE: notification_service.dfy ===
/**
 * The body of the notification service's send route: look the notification up,
 * mark it SENT with the current time, and save it again. The lookup hands back
 * the stored object itself, so the update is visible under the looked-up key
 * before `save` files it under the notification's own id.
 */
module NotificationService {
  import opened Wrappers
  import opened JavaLang
  import opened JavaTime
  import opened Notifications
  import opened NotificationRepository

  /** What the route answers: 404 for an unknown id, the sent notification, or the exception `save` threw. */
  datatype SendResponse = NotFound | Delivered(notification: Notification) | Threw(error: Exception)

  /** The repository afterwards and the route's answer. */
  datatype SendOutcome = SendOutcome(store: NotificationStore, response: SendResponse)

  /** The notification as the send route leaves it: status SENT, sent at `now`, every other field as before. */
  function MarkSent(n: Notification, now: LocalDateTime): (r: Notification)
    ensures r.status == Some(Sent) && r.sentAt == Some(now)
    ensures r.id == n.id && r.userId == n.userId && r.title == n.title
    ensures r.content == n.content && r.channel == n.channel && r.createdAt == n.createdAt
  {
    SetSentAt(SetStatus(n, Some(Sent)), Some(now))
  }

  /** The send route for the notification stored under `id`, with `now` the time the clock reads. */
  function Send(store: NotificationStore, id: string, now: LocalDateTime): (r: SendOutcome)
    ensures id !in store <==> r.response.NotFound?
    ensures id !in store ==> r.store == store
    ensures id in store ==> id in r.store && r.store[id] == MarkSent(store[id], now)
    ensures r.response.Delivered? ==> r.response.notification == MarkSent(store[id], now)
    ensures r.response.Threw? ==> store[id].id.None? && r.response.error == NullPointer
    ensures r.response.Threw? ==> r.store.Keys == store.Keys
    ensures r.response.Delivered? ==> store[id].id.Some?
    ensures r.response.Delivered? ==> r.store.Keys == store.Keys + {store[id].id.value}
    ensures r.response.Delivered? ==> r.store[store[id].id.value] == MarkSent(store[id], now)
    ensures id in store ==> forall k | k in store && k != id && Some(k) != store[id].id :: r.store[k] == store[k]
  {
    if id !in store then
      SendOutcome(store, NotFound)
    else
      var sent := MarkSent(store[id], now);
      var mutated := store[id := sent];
      match Save(mutated, sent)
      case Err(e) => SendOutcome(mutated, Threw(e))
      case Ok(saved) => SendOutcome(saved, Delivered(sent))
  }

  /**
   * When every notification is filed under its own id, as `save` files them,
   * sending a stored id always succeeds, changes only that entry, and keeps the
   * filing intact.
   */
  lemma SendKeyed(store: NotificationStore, id: string, now: LocalDateTime)
    requires Keyed(store) && id in store
    ensures Send(store, id, now).response == Delivered(MarkSent(store[id], now))
    ensures Send(store, id, now).store == store[id := MarkSent(store[id], now)]
    ensures Keyed(Send(store, id, now).store)
  {
  }

  /** A new notification starts PENDING; once saved and sent it is SENT with a sending time. */
  lemma PendingThenSent(store: NotificationStore, id: string, userId: Option<string>, title: Option<string>,
                        content: Option<string>, channel: Option<string>, created: LocalDateTime, now: LocalDateTime)
    requires Keyed(store)
    ensures NewNotification(Some(id), userId, title, content, channel, created).status == Some(Pending)
    ensures Save(store, NewNotification(Some(id), userId, title, content, channel, created)).Ok?
    ensures var saved := Save(store, NewNotification(Some(id), userId, title, content, channel, created)).value;
            var r := Send(saved, id, now);
            r.response.Delivered? && r.store[id].status == Some(Sent) && r.store[id].sentAt == Some(now)
  {
  }
}

=== FILE: receiver.dfy ===
/**
 * `ActiveMqReceiver`: a message listener holding an optional handler and three
 * optional JMS resources. JMS objects are abstract handles; a failure map says
 * which resources throw when closed, and with what.
 */
module ActiveMqReceiver {
  import opened Wrappers
  import opened JavaLang
  import opened MQ
  import opened Enumeration

  /** An opaque JMS object or handler, told apart by an identifier. */
  datatype Handle = Handle(id: nat)

  /** A message as the listener receives it; its contents are never inspected. */
  datatype Message = Message(id: nat)

  datatype Receiver = Receiver(
    handler: Option<Handle>,
    connection: Option<Handle>,
    session: Option<Handle>,
    consumer: Option<Handle>,
    destinationType: Option<DestinationType>,
    currentDestination: Option<string>)

  /** The receiver as constructed: no code in the class assigns any field, so all stay null. */
  const Unassigned := Receiver(None, None, None, None, None, None)

  /** One call of the handler with one message. */
  datatype Invocation = Invocation(handler: Handle, message: Message)

  /** `onMessage`: the handler calls made; the receiver itself is not changed. */
  function OnMessage(rcv: Receiver, msg: Message): (r: seq<Invocation>)
    ensures rcv.handler.None? <==> r == []
    ensures rcv.handler.Some? ==> r == [Invocation(rcv.handler.value, msg)]
  {
    match rcv.handler
    case None => []
    case Some(h) => [Invocation(h, msg)]
  }

  /** The three resources `close` handles, in the order it handles them. */
  datatype Resource = Consumer | Session | Connection

  /** How closing a resource fails: a JMSException, or an unchecked exception `close` does not catch. */
  datatype CloseFailure = JmsFailure(e: Exception) | OtherFailure(e: Exception)

  const CloseFailurePrefix := "Failed to close receiver: "

  /** A resource's place in the close order. */
  function Rank(res: Resource): nat {
    match res
    case Consumer => 0
    case Session => 1
    case Connection => 2
  }

  /** The non-null resources, in the order consumer, session, connection. */
  function Held(rcv: Receiver): (r: seq<Resource>)
    ensures forall i, j | 0 <= i < j < |r| :: Rank(r[i]) < Rank(r[j])
    ensures Consumer in r <==> rcv.consumer.Some?
    ensures Session in r <==> rcv.session.Some?
    ensures Connection in r <==> rcv.connection.Some?
  {
    (if rcv.consumer.Some? then [Consumer] else [])
    + (if rcv.session.Some? then [Session] else [])
    + (if rcv.connection.Some? then [Connection] else [])
  }

  /** Closes `pending` in order and stops at the first failure: the resources attempted and that failure. */
  function CloseInOrder(pending: seq<Resource>, failures: map<Resource, CloseFailure>)
    : (r: (seq<Resource>, Option<CloseFailure>))
    ensures r.0 <= pending
    ensures forall i | 0 <= i < |r.0| - 1 :: r.0[i] !in failures
    ensures r.1.None? <==> r.0 == pending && forall i | 0 <= i < |pending| :: pending[i] !in failures
    ensures r.1.Some? ==> |r.0| > 0 && r.0[|r.0| - 1] in failures && r.1.value == failures[r.0[|r.0| - 1]]
  {
    if |pending| == 0 then ([], None)
    else if pending[0] in failures then ([pending[0]], Some(failures[pending[0]]))
    else
      var rest := CloseInOrder(pending[1..], failures);
      assert pending == [pending[0]] + pending[1..];
      ([pending[0]] + rest.0, rest.1)
  }

  /** What `close` did: the resources it tried to close, the exception it threw, and the receiver afterwards. */
  datatype CloseOutcome = CloseOutcome(attempted: seq<Resource>, thrown: Option<Exception>, receiver: Receiver)

  /**
   * `close`: closes consumer, session and connection, skipping null ones, and
   * stops at the first failure. A JMSException is rethrown wrapped in a
   * RuntimeException; any other exception passes through. No field is reset.
   */
  function Close(rcv: Receiver, failures: map<Resource, CloseFailure>): (r: CloseOutcome)
    ensures r.receiver == rcv
    ensures r.attempted <= Held(rcv)
    ensures r.thrown.None? <==> r.attempted == Held(rcv) && forall i | 0 <= i < |r.attempted| :: r.attempted[i] !in failures
    ensures r.thrown.Some? ==> forall i | 0 <= i < |r.attempted| - 1 :: r.attempted[i] !in failures
    ensures r.thrown.Some? ==> |r.attempted| > 0 && r.attempted[|r.attempted| - 1] in failures
    ensures r.thrown.Some? ==> r.thrown.value == Rethrown(failures[r.attempted[|r.attempted| - 1]])
  {
    var (attempted, failure) := CloseInOrder(Held(rcv), failures);
    var thrown := match failure
      case None => None
      case Some(f) => Some(Rethrown(f));
    CloseOutcome(attempted, thrown, rcv)
  }

  /** What leaves `close` for a failure: a JMSException wrapped in a RuntimeException naming it, anything else as it is. */
  function Rethrown(f: CloseFailure): (r: Exception)
    ensures f.JmsFailure? ==> r.className == RuntimeExceptionClass && r.message.Some?
    ensures f.JmsFailure? ==> r.message.value == CloseFailurePrefix + ExceptionText(f.e)
    ensures f.OtherFailure? ==> r == f.e
  {
    match f
    case JmsFailure(e) => RuntimeException(CloseFailurePrefix + ExceptionText(e))
    case OtherFailure(e) => e
  }

  /** With every resource null, `close` attempts nothing and throws nothing. */
  lemma CloseWithNothingHeld(rcv: Receiver, failures: map<Resource, CloseFailure>)
    requires rcv.consumer.None? && rcv.session.None? && rcv.connection.None?
    ensures Close(rcv, failures) == CloseOutcome([], None, rcv)
  {
  }

  /** `close` keeps nothing of its own: a second call tries the same resources again and ends the same way. */
  lemma CloseRepeats(rcv: Receiver, failures: map<Resource, CloseFailure>)
    ensures Close(Close(rcv, failures).receiver, failures) == Close(rcv, failures)
  {
  }

  /** As constructed, a receiver drops every message and closes nothing. */
  lemma UnassignedReceiverIsInert(msg: Message, failures: map<Resource, CloseFailure>)
    ensures OnMessage(Unassigned, msg) == []
    ensures Close(Unassigned, failures) == CloseOutcome([], None, Unassigned)
  {
  }

  /**
   * When closing the consumer fails, the session and connection are never
   * closed and the caller gets an exception, against independent release that
   * reports failures without throwing.
   */
  lemma ConsumerFailureSkipsOthers(consumer: Handle, session: Handle, connection: Handle, e: Exception)
    ensures var rcv := Receiver(None, Some(connection), Some(session), Some(consumer), None, None);
            var r := Close(rcv, map[Consumer := JmsFailure(e)]);
            r.attempted == [Consumer] && Session !in r.attempted && Connection !in r.attempted
            && r.thrown == Some(Rethrown(JmsFailure(e)))
  {
  }

  /** Independent release: what was attempted, the failures collected along the way, and the receiver afterwards. */
  datatype ReleaseOutcome = ReleaseOutcome(attempted: seq<Resource>, failures: seq<CloseFailure>, receiver: Receiver)

  /** Whether closing a resource fails, as a value for `Filter` and `Positions`. */
  function FailsIn(failures: map<Resource, CloseFailure>): Resource -> bool {
    k => k in failures
  }

  lemma FailsInMeans(failures: map<Resource, CloseFailure>)
    ensures forall k :: FailsIn(failures)(k) == (k in failures)
  {
  }

  /**
   * Tries to close every resource in `pending`, whatever the others do, and
   * collects the failures in order: one entry per failing resource, entry `i`
   * being the failure of the `i`-th failing resource.
   */
  function ReleaseAll(pending: seq<Resource>, failures: map<Resource, CloseFailure>): (r: seq<CloseFailure>)
    ensures |r| <= |pending|
    ensures forall i | 0 <= i < |pending| && pending[i] in failures :: failures[pending[i]] in r
    ensures forall f | f in r :: exists k | k in pending && k in failures :: f == failures[k]
  {
    if |pending| == 0 then []
    else
      var rest := ReleaseAll(pending[1..], failures);
      assert forall i | 1 <= i < |pending| :: pending[i] == pending[1..][i - 1];
      if pending[0] in failures then [failures[pending[0]]] + rest else rest
  }

  /** The collected failures are those of the failing resources `Filter` keeps, one each and in the same order. */
  lemma {:induction false} ReleaseAllFilters(pending: seq<Resource>, failures: map<Resource, CloseFailure>)
    ensures |ReleaseAll(pending, failures)| == |Filter(pending, FailsIn(failures))|
    ensures forall i | 0 <= i < |ReleaseAll(pending, failures)| ::
              Filter(pending, FailsIn(failures))[i] in failures
              && ReleaseAll(pending, failures)[i] == failures[Filter(pending, FailsIn(failures))[i]]
  {
    FailsInMeans(failures);
    if |pending| > 0 {
      ReleaseAllFilters(pending[1..], failures);
      var r := ReleaseAll(pending, failures);
      var rest := ReleaseAll(pending[1..], failures);
      var f := Filter(pending, FailsIn(failures));
      var tail := Filter(pending[1..], FailsIn(failures));
      if pending[0] in failures {
        assert r == [failures[pending[0]]] + rest;
        assert f == [pending[0]] + tail;
        forall i | 0 <= i < |r| ensures f[i] in failures && r[i] == failures[f[i]] {
          if i > 0 {
            assert r[i] == rest[i - 1] && f[i] == tail[i - 1];
          }
        }
      } else {
        assert r == rest && f == tail;
      }
    }
  }

  /** The collected failures, positionally: entry `i` is the failure of the resource at the `i`-th failing position of `pending`. */
  lemma ReleaseAllInOrder(pending: seq<Resource>, failures: map<Resource, CloseFailure>)
    ensures var r := ReleaseAll(pending, failures);
            var idx := Positions(pending, FailsIn(failures));
            && |r| == |idx|
            && (forall i | 0 <= i < |r| :: idx[i] < |pending| && pending[idx[i]] in failures
                                           && r[i] == failures[pending[idx[i]]])
            && (forall i, j | 0 <= i < j < |idx| :: idx[i] < idx[j])
            && (forall j | 0 <= j < |pending| :: j in idx <==> pending[j] in failures)
  {
    FailsInMeans(failures);
    ReleaseAllFilters(pending, failures);
    FilterAtPositions(pending, FailsIn(failures));
  }

  /**
   * `close` as the receiver's contract describes it: every held resource is
   * attempted, failures are collected into one diagnostic instead of thrown,
   * and the fields are cleared so that a later call has nothing to release.
   */
  function CloseIndependent(rcv: Receiver, failures: map<Resource, CloseFailure>): (r: ReleaseOutcome)
    ensures r.attempted == Held(rcv)
    ensures forall i | 0 <= i < |r.attempted| && r.attempted[i] in failures :: failures[r.attempted[i]] in r.failures
    ensures forall f | f in r.failures :: exists k | k in r.attempted && k in failures :: f == failures[k]
    ensures |r.failures| == |Positions(Held(rcv), FailsIn(failures))|
    ensures forall i | 0 <= i < |r.failures| ::
              r.failures[i] == failures[Held(rcv)[Positions(Held(rcv), FailsIn(failures))[i]]]
    ensures r.receiver.consumer.None? && r.receiver.session.None? && r.receiver.connection.None?
    ensures r.receiver.handler == rcv.handler && r.receiver.destinationType == rcv.destinationType
    ensures r.receiver.currentDestination == rcv.currentDestination
  {
    var held := Held(rcv);
    ReleaseAllInOrder(held, failures);
    ReleaseOutcome(held, ReleaseAll(held, failures), rcv.(connection := None, session := None, consumer := None))
  }

  /** A consumer failure no longer stops the session and connection from being closed. */
  lemma IndependentCloseReachesAll(consumer: Handle, session: Handle, connection: Handle, e: Exception)
    ensures var rcv := Receiver(None, Some(connection), Some(session), Some(consumer), None, None);
            var r := CloseIndependent(rcv, map[Consumer := JmsFailure(e)]);
            r.attempted == [Consumer, Session, Connection] && r.failures == [JmsFailure(e)]
  {
    var rcv := Receiver(None, Some(connection), Some(session), Some(consumer), None, None);
    var f := map[Consumer := JmsFailure(e)];
    assert Held(rcv) == [Consumer, Session, Connection];
    assert [Connection][1..] == [];
    assert ReleaseAll([Connection], f) == [];
    assert [Session, Connection][1..] == [Connection];
    assert ReleaseAll([Session, Connection], f) == [];
    assert [Consumer, Session, Connection][1..] == [Session, Connection];
    assert ReleaseAll([Consumer, Session, Connection], f) == [JmsFailure(e)];
  }

  /** Closing again after an independent close attempts nothing and reports nothing, whatever would fail. */
  lemma IndependentCloseIdempotent(rcv: Receiver, failures: map<Resource, CloseFailure>)
    ensures var once := CloseIndependent(rcv, failures);
            var twice := CloseIndependent(once.receiver, failures);
            twice.attempted == [] && twice.failures == [] && twice.receiver == once.receiver
  {
  }
}

=== FILE: text.dfy ===
/** String helpers: Java's `startsWith`/`contains`, and the decimal text of an integer. */
module Text {

  /** `s.startsWith(prefix)`. */
  predicate StartsWith(s: string, prefix: string) {
    prefix <= s
  }

  /** `t` occurs in `s` starting at index `i`. */
  ghost predicate OccursAt(s: string, t: string, i: int) {
    0 <= i && i + |t| <= |s| && s[i..i + |t|] == t
  }

  /** `s.contains(t)`: some window of `s` equals `t`. */
  function Contains(s: string, t: string): (r: bool)
    ensures r <==> exists i :: OccursAt(s, t, i)
    decreases |s|
  {
    if t <= s then
      assert OccursAt(s, t, 0);
      true
    else if |s| == 0 then
      assert forall i :: !OccursAt(s, t, i);
      false
    else
      var r := Contains(s[1..], t);
      assert forall i :: OccursAt(s[1..], t, i) ==> OccursAt(s, t, i + 1) by {
        forall i | OccursAt(s[1..], t, i) ensures OccursAt(s, t, i + 1) {
          assert s[1..][i..i + |t|] == s[i + 1..i + 1 + |t|];
        }
      }
      assert forall i :: OccursAt(s, t, i) ==> i >= 1 && OccursAt(s[1..], t, i - 1) by {
        forall i | OccursAt(s, t, i) ensures i >= 1 && OccursAt(s[1..], t, i - 1) {
          if i == 0 {
            assert false;
          }
          assert s[1..][i - 1..i - 1 + |t|] == s[i..i + |t|];
        }
      }
      r
  }

  /** How many times `c` occurs in `s`. */
  function CountChar(s: string, c: char): (n: nat)
    ensures n <= |s|
    ensures n == 0 <==> c !in s
  {
    if |s| == 0 then 0
    else
      assert s == [s[0]] + s[1..];
      (if s[0] == c then 1 else 0) + CountChar(s[1..], c)
  }

  lemma {:induction false} CountConcat(a: string, b: string, c: char)
    ensures CountChar(a + b, c) == CountChar(a, c) + CountChar(b, c)
  {
    if |a| == 0 {
      assert a + b == b;
    } else {
      assert (a + b)[1..] == a[1..] + b;
      CountConcat(a[1..], b, c);
    }
  }

  predicate IsDigit(c: char) {
    '0' <= c <= '9'
  }

  predicate AllDigits(s: string) {
    forall i :: 0 <= i < |s| ==> IsDigit(s[i])
  }

  function DigitChar(d: nat): (c: char)
    requires d < 10
    ensures IsDigit(c)
  {
    ('0' as int + d) as char
  }

  function DigitValue(c: char): (d: nat)
    requires IsDigit(c)
    ensures d < 10
  {
    c as int - '0' as int
  }

  /** The decimal digits of `n`, most significant first, without leading zeros. */
  function NatText(n: nat): (r: string)
    ensures 1 <= |r| && AllDigits(r)
    ensures |r| > 1 ==> r[0] != '0'
    decreases n
  {
    if n < 10 then [DigitChar(n)] else NatText(n / 10) + [DigitChar(n % 10)]
  }

  /** The value of a string of decimal digits (0 for the empty string). */
  function ParseNat(s: string): nat
    requires AllDigits(s)
  {
    if |s| == 0 then 0 else ParseNat(s[..|s| - 1]) * 10 + DigitValue(s[|s| - 1])
  }

  /** `Integer.toString(n)`: a minus sign for negative values, then the digits of the magnitude. */
  function DecimalText(n: int): (r: string)
    ensures |r| >= 1
    ensures forall i :: 0 <= i < |r| ==> IsDigit(r[i]) || (i == 0 && r[i] == '-')
  {
    if n < 0 then "-" + NatText(-n) else NatText(n)
  }

  /** Reads back a decimal text: an optional minus sign followed by digits. */
  function ParseDecimal(s: string): int
    requires forall i :: 0 <= i < |s| ==> IsDigit(s[i]) || (i == 0 && s[i] == '-')
  {
    if |s| > 0 && s[0] == '-' then -(ParseNat(s[1..]) as int) else ParseNat(s)
  }

  lemma {:induction false} ParseNatText(n: nat)
    ensures ParseNat(NatText(n)) == n
    decreases n
  {
    if n >= 10 {
      var r := NatText(n);
      assert r[..|r| - 1] == NatText(n / 10);
      ParseNatText(n / 10);
    }
  }

  /** Reading back the decimal text of any integer gives the integer. */
  lemma DecimalRoundTrip(n: int)
    ensures ParseDecimal(DecimalText(n)) == n
  {
    if n < 0 {
      ParseNatText(-n);
      assert DecimalText(n)[1..] == NatText(-n);
    } else {
      ParseNatText(n);
    }
  }
}

=== FILE: user_report.dfy ===
/**
 * The reports service's `UserReport`: a user's id, names, email and creation
 * time, with a fixed CSV header and a row built by `String.format` with five
 * `%s` placeholders. Unlike the web service's writer, the row applies no
 * quoting at all; `ToCsvRowEscaped` is the RFC 4180 row the header calls for.
 */
module UserReport {
  import opened Wrappers
  import opened JavaLang
  import opened JavaTime
  import opened Text
  import opened Csv

  /** A report. Every reference field may be null; the no-argument constructor leaves them all null. */
  datatype Report = Report(
    id: Int32,
    name: Option<string>,
    surname: Option<string>,
    email: Option<string>,
    createdAt: Option<LocalDateTime>)

  /** The four-argument constructor; `now` stands for the `LocalDateTime.now()` it reads. */
  function NewReport(id: Int32, name: Option<string>, surname: Option<string>, email: Option<string>,
                     now: LocalDateTime): (r: Report)
    ensures r.id == id && r.name == name && r.surname == surname && r.email == email
    ensures r.createdAt == Some(now)
  {
    Report(id, name, surname, email, Some(now))
  }

  /** The header's column names, in order. */
  const HeaderColumns := ["ID", "Name", "Surname", "Email", "Created At"]

  /** `getCSVHeader`: the column names joined by commas, "ID,Name,Surname,Email,Created At". */
  const CsvHeader := JoinCells(HeaderColumns)

  /** None of the header's names needs quoting, so an RFC 4180 reader gives back the five names. */
  lemma HeaderParse()
    ensures ParseRecord(CsvHeader) == Some(HeaderColumns)
  {
    PlainCellsEncode(HeaderColumns);
    ParseEncodeRecord(HeaderColumns);
  }

  /** Split on every comma, the header has five columns. */
  lemma HeaderColumnCount()
    ensures Columns(CsvHeader) == 5
  {
    assert forall i | 0 <= i < 5 :: !NeedsQuoting(HeaderColumns[i]);
    NoCommasIn(HeaderColumns);
    JoinColumns(HeaderColumns);
  }

  /** `%s` of the creation time: `LocalDateTime.toString()`, or "null". */
  function CreatedAtText(createdAt: Option<LocalDateTime>): (r: string)
    ensures createdAt.None? ==> r == "null"
    ensures createdAt.Some? ==> r == createdAt.value.displayText
    ensures !NeedsQuoting(r)
  {
    match createdAt
    case None => "null"
    case Some(d) =>
      assert forall i | 0 <= i < |d.displayText| :: IsIsoChar(d.displayText[i]);
      d.displayText
  }

  /**
   * The five texts `%s` produces, in header order: the id's decimal text, the
   * three strings with null printed as "null", and the creation time.
   */
  function RowValues(report: Report): seq<string> {
    [ DecimalText(report.id), NullableText(report.name), NullableText(report.surname),
      NullableText(report.email), CreatedAtText(report.createdAt) ]
  }

  /**
   * `toCSVRow`: the five texts separated by commas, none of them quoted. Split
   * on every comma, the row has five columns plus one for each comma inside the
   * name, surname and email: the id and the date never hold one.
   */
  function ToCsvRow(report: Report): (r: string)
    ensures Columns(r)
         == 5 + CountChar(NullableText(report.name), Comma) + CountChar(NullableText(report.surname), Comma)
              + CountChar(NullableText(report.email), Comma)
  {
    var v := RowValues(report);
    JoinColumns(v);
    CommasFive(v[0], v[1], v[2], v[3], v[4]);
    DecimalTextHasNoComma(report.id);
    JoinCells(v)
  }

  lemma DecimalTextHasNoComma(n: int)
    ensures Comma !in DecimalText(n)
  {
  }

  lemma JoinFive(a: string, b: string, c: string, d: string, e: string)
    ensures JoinCells([a, b, c, d, e]) == a + [Comma] + (b + [Comma] + (c + [Comma] + (d + [Comma] + e)))
  {
    assert [d, e] == [d] + [e];
    JoinCons(d, [e]);
    assert [c, d, e] == [c] + [d, e];
    JoinCons(c, [d, e]);
    assert [b, c, d, e] == [b] + [c, d, e];
    JoinCons(b, [c, d, e]);
    assert [a, b, c, d, e] == [a] + [b, c, d, e];
    JoinCons(a, [b, c, d, e]);
  }

  lemma CommasFive(a: string, b: string, c: string, d: string, e: string)
    ensures CommasIn([a, b, c, d, e])
         == CountChar(a, Comma) + CountChar(b, Comma) + CountChar(c, Comma) + CountChar(d, Comma) + CountChar(e, Comma)
  {
    assert [e] == [e] + [];
    CommasCons(e, []);
    assert [d, e] == [d] + [e];
    CommasCons(d, [e]);
    assert [c, d, e] == [c] + [d, e];
    CommasCons(c, [d, e]);
    assert [b, c, d, e] == [b] + [c, d, e];
    CommasCons(b, [c, d, e]);
    assert [a, b, c, d, e] == [a] + [b, c, d, e];
    CommasCons(a, [b, c, d, e]);
  }

  /**
   * The row is id, name, surname, email and creation time, in that order,
   * separated by single commas; the id is written as its decimal text.
   */
  lemma RowLayout(report: Report)
    ensures ToCsvRow(report)
         == DecimalText(report.id) + [Comma] + (NullableText(report.name) + [Comma]
          + (NullableText(report.surname) + [Comma] + (NullableText(report.email) + [Comma]
          + CreatedAtText(report.createdAt))))
    ensures ParseDecimal(RowValues(report)[0]) == report.id
  {
    var v := RowValues(report);
    JoinFive(v[0], v[1], v[2], v[3], v[4]);
    DecimalRoundTrip(report.id);
  }

  /** The row has the header's five columns exactly when none of the three strings holds a comma. */
  lemma RowHasHeaderColumns(report: Report)
    ensures Columns(ToCsvRow(report)) == Columns(CsvHeader)
        <==> Comma !in NullableText(report.name) && Comma !in NullableText(report.surname)
             && Comma !in NullableText(report.email)
  {
    HeaderColumnCount();
  }

  /** When no string needs quoting, an RFC 4180 reader gives back the five texts. */
  lemma PlainRowParses(report: Report)
    requires !NeedsQuoting(NullableText(report.name))
    requires !NeedsQuoting(NullableText(report.surname))
    requires !NeedsQuoting(NullableText(report.email))
    ensures ParseRecord(ToCsvRow(report)) == Some(RowValues(report))
  {
    var v := RowValues(report);
    DecimalTextHasNoComma(report.id);
    var t := DecimalText(report.id);
    assert forall i | 0 <= i < |t| :: t[i] != Quote && t[i] != LineFeed && t[i] != CarriageReturn;
    assert forall i | 0 <= i < 5 :: !NeedsQuoting(v[i]);
    PlainCellsEncode(v);
    ParseEncodeRecord(v);
  }

  /** A name holding a comma pushes the row to six columns against the header's five. */
  lemma CommaInNameBreaksRow(now: LocalDateTime)
    ensures Columns(ToCsvRow(NewReport(1, Some("a,b"), Some("c"), Some("d"), now))) == 6
    ensures Columns(CsvHeader) == 5
  {
    HeaderColumnCount();
    var report := NewReport(1, Some("a,b"), Some("c"), Some("d"), now);
    assert Columns(ToCsvRow(report)) == 5 + CountChar("a,b", Comma) + CountChar("c", Comma) + CountChar("d", Comma);
    assert "a,b"[1..] == ",b";
    assert ",b"[1..] == "b";
    assert CountChar("a,b", Comma) == 1;
    assert CountChar("c", Comma) == 0;
    assert CountChar("d", Comma) == 0;
  }

  /** The row with every text encoded after RFC 4180, as the header's CSV format calls for. */
  function ToCsvRowEscaped(report: Report): (r: string)
    ensures ParseRecord(r) == Some(RowValues(report))
    ensures |RowValues(report)| == |HeaderColumns|
  {
    ParseEncodeRecord(RowValues(report));
    EncodeRecord(RowValues(report))
  }

  /** Where no string needs quoting, the escaped row is the row `toCSVRow` writes. */
  lemma EscapedAgreesWhenPlain(report: Report)
    requires !NeedsQuoting(NullableText(report.name))
    requires !NeedsQuoting(NullableText(report.surname))
    requires !NeedsQuoting(NullableText(report.email))
    ensures ToCsvRowEscaped(report) == ToCsvRow(report)
  {
    var v := RowValues(report);
    DecimalTextHasNoComma(report.id);
    var t := DecimalText(report.id);
    assert forall i | 0 <= i < |t| :: t[i] != Quote && t[i] != LineFeed && t[i] != CarriageReturn;
    assert forall i | 0 <= i < 5 :: !NeedsQuoting(v[i]);
    PlainCellsEncode(v);
  }
}

=== FILE: user_repository.dfy ===
/**
 * The users service's `InMemoryUserRepository`: a concurrent hash map from the
 * user id to the user. The state is the map; every operation returns what the
 * Java method returns and, for the mutating ones, the map afterwards. Lookups
 * return no map at all, so they cannot change the store.
 */
module UserRepository {
  import opened Wrappers
  import opened JavaLang
  import opened Users
  import opened Enumeration

  type UserStore = map<Int32, UserData>

  /** The result of `save`: the returned user and the store afterwards. */
  datatype Saved = Saved(returned: UserData, store: UserStore)

  /** `save`: stores the user under its id, replacing any previous entry, and returns it. */
  function Save(store: UserStore, user: UserData): (r: Saved)
    ensures r.returned == user
    ensures r.store.Keys == store.Keys + {user.id}
    ensures r.store[user.id] == user
    ensures forall id | id in store && id != user.id :: r.store[id] == store[id]
  {
    Saved(user, store[user.id := user])
  }

  /** `findById`: the user stored under `id`, or empty. */
  function FindById(store: UserStore, id: Int32): (r: Option<UserData>)
    ensures r.Some? <==> id in store
    ensures r.Some? ==> r.value == store[id]
  {
    if id in store then Some(store[id]) else None
  }

  /** The result of `deleteById`: whether an entry was removed, and the store afterwards. */
  datatype Deleted = Deleted(removed: bool, store: UserStore)

  /** `deleteById`: removes the entry for `id`; true exactly when there was one. */
  function DeleteById(store: UserStore, id: Int32): (r: Deleted)
    ensures r.removed <==> id in store
    ensures r.store.Keys == store.Keys - {id}
    ensures forall k | k in r.store :: r.store[k] == store[k]
    ensures !r.removed ==> r.store == store
  {
    Deleted(id in store, store - {id})
  }

  /** `findAll`, with the map's iteration order made explicit. */
  function FindAll(store: UserStore, order: seq<Int32>): (r: seq<UserData>)
    requires IsOrderOf(order, store)
    ensures |r| == |store| == |order|
    ensures forall i | 0 <= i < |r| :: r[i] == store[order[i]]
    ensures forall id | id in store :: store[id] in r
    ensures forall u | u in r :: exists id :: id in store && store[id] == u
  {
    ValuesInOrderExact(store, order);
    ValuesInOrder(store, order)
  }

  /**
   * `findByUsername`: the first user, in iteration order, whose name equals
   * `username`. `username.equals(null)` is false, so a user with a null name
   * never matches.
   */
  function FindByUsername(store: UserStore, order: seq<Int32>, username: string): (r: Option<UserData>)
    requires IsOrderOf(order, store)
    ensures r.Some? ==> r.value.name == Some(username)
    ensures r.Some? ==> exists i | 0 <= i < |order| ::
      store[order[i]] == r.value && forall j | 0 <= j < i :: store[order[j]].name != Some(username)
    ensures r.None? <==> forall id | id in store :: store[id].name != Some(username)
  {
    var all := FindAll(store, order);
    match FirstMatch(all, (u: UserData) => u.name == Some(username))
    case None => None
    case Some(i) =>
      ValuesInOrderAt(store, order, i);
      forall j | 0 <= j < i ensures store[order[j]].name != Some(username) {
        ValuesInOrderAt(store, order, j);
      }
      Some(all[i])
  }

  /** `findByEmail`: the first user, in iteration order, whose email equals `email`. */
  function FindByEmail(store: UserStore, order: seq<Int32>, email: string): (r: Option<UserData>)
    requires IsOrderOf(order, store)
    ensures r.Some? ==> r.value.email == Some(email)
    ensures r.Some? ==> exists i | 0 <= i < |order| ::
      store[order[i]] == r.value && forall j | 0 <= j < i :: store[order[j]].email != Some(email)
    ensures r.None? <==> forall id | id in store :: store[id].email != Some(email)
  {
    var all := FindAll(store, order);
    match FirstMatch(all, (u: UserData) => u.email == Some(email))
    case None => None
    case Some(i) =>
      ValuesInOrderAt(store, order, i);
      forall j | 0 <= j < i ensures store[order[j]].email != Some(email) {
        ValuesInOrderAt(store, order, j);
      }
      Some(all[i])
  }

  /** After `save`, `findById` on the saved id returns the saved user. */
  lemma SaveThenFind(store: UserStore, user: UserData)
    ensures FindById(Save(store, user).store, user.id) == Some(user)
  {
  }

  /** After `deleteById`, `findById` on that id is empty, and other lookups are as before. */
  lemma DeleteThenFind(store: UserStore, id: Int32, other: Int32)
    requires other != id
    ensures FindById(DeleteById(store, id).store, id) == None
    ensures FindById(DeleteById(store, id).store, other) == FindById(store, other)
  {
  }
}

=== FILE: users.dfy ===
/** The user record shared by the users service and the web module's CSV export. */
module Users {
  import opened Wrappers
  import opened JavaLang
  import opened JavaTime

  /** `UserData`: an int id, three nullable strings, a nullable creation time and an active flag. */
  datatype UserData = UserData(
    id: Int32,
    name: Option<string>,
    surname: Option<string>,
    email: Option<string>,
    createdAt: Option<LocalDateTime>,
    active: bool)
}

=== FILE: wrappers.dfy ===
/** Option and Result: the model's stand-ins for Java's null and for thrown exceptions. */
module Wrappers {

  /** A possibly-absent value; `None` plays the part of Java's `null`. */
  datatype Option<+T> = None | Some(value: T) {

    /** The wrapped value, or `default` when absent. */
    function GetOr(default: T): T {
      match this
      case Some(v) => v
      case None => default
    }
  }

  /** Either a normal return value or the exception an operation raised. */
  datatype Result<+T, +E> = Ok(value: T) | Err(error: E)
}
